=== FILE: README.md ===
# blk record-stream decoder

A Dafny model of the `blk` decoder of bitcoin-utxo-visualizer-rs and of the
`CheckSequential` callback that checks its output.

A `blk` file is a sequence of records. Each record holds:

- the magic `0x004b4c42` (bytes `42 4C 4B 00`);
- the block height;
- a section length;
- an absolute amount and the block height it belongs to;
- delta pairs. Each pair is an unsigned varint added to the amount and a
  ZigZag varint added to the height.

All fixed-width fields are little-endian. Delta pairs follow until the bytes
counted since the section length reach it.

`parse` calls `begin_block` once per record and `change` once for the
absolute amount and once per delta. It returns `Some(())` or `None`.
Callbacks already made are not undone when it fails.

Files:

- `machine.dfy` (`Machine`): Rust's fixed-width integers as subset types of
  `int`, with explicit wrap-around. Also the shift and `|` operations.
- `maybe.dfy` (`Maybe`): `Option`.
- `readers.dfy` (`Readers`): `parse_u32`, `parse_u64`, `parse_i64`,
  `parse_var_u64` and `parse_var_i32` as pure functions. Each takes the
  remaining bytes and returns the value and the bytes left, or `None`.
- `parser.dfy` (`Parser`): `parse` as a total recursive function. It returns
  the success flag and the trace of callback events.
- `encoder.dfy` (`Encoder`): a reference writer for records, and the proof
  that `parse` reads a written stream back as exactly the events it
  describes.
- `check_sequential.dfy` (`CheckSequential`): the callback of `src/main.rs`,
  as a fold over the event trace. Each message it would print becomes a
  `Report`.

The model follows a release build: every addition wraps, and a shift amount
is reduced modulo the bit width.

Three behaviours of the code differ from what its names, or standard
LEB128, would lead a reader to expect. The model follows the code:

- **The varint is not LEB128.** `parse_var_u64` ORs in each byte with its
  continuation bit still set. For a varint of at most ten bytes, the value
  it computes is the LEB128 value with bit `7·(i+1)` also set for every byte
  `i` but the last, cut to 64 bits. The tenth byte is shifted by 63, so only
  its bit 0 lands, at bit 63, which the ninth byte's continuation bit has
  already set. The bytes
  `AC 02`, 300 in LEB128, decode to 428 (`Readers.VarU64NotLeb128`). So no
  LEB128 writer round-trips through it. The round trip in `Encoder` is stated
  against the decoder's own value `Readers.VarintValue`. Every varint of two
  to ten bytes decodes to a value with bit 7 set (`Readers.VarU64BitSeven`).
  So a value of at least 128 with bit 7 clear, such as 256, has no varint of
  at most ten bytes (`Readers.VarU64Gaps`), and an amount or height delta of
  that value cannot be written. The decoder is not injective either: `80 00`
  and `80 01` both decode to 128 (`Readers.VarU64NotInjective`). A varint of
  at most nine bytes decodes below 2^63, so `amount_diff as i64` is never
  negative for it. A ten-byte varint always decodes to 2^63 or more, a
  negative `i64` (`Readers.VarintSign`). So an amount goes down only through
  a ten-byte delta. `FF` nine times then `01` decodes to 2^64−1, which is −1
  (`Readers.VarU64MinusOne`).
- **A short tail is success.** With one to three bytes left at a record
  boundary, `parse_u32` fails and `parse` returns `Some(())`
  (`Parser.ParseShortTail`). So a stream cut just after a record, or just
  inside the next magic, does not fail.
- **`change` has two arguments.** The trait's `change` takes a height and an
  amount. The third argument `is_same_as_previous_change` of the
  `CheckSequential` implementation at `src/main.rs:47` is never supplied by
  `parse`, and `parse` never calls `end_block`.

## Model

| member | source | states |
|---|---|---|
| Machine.WrapU32 | src/blk/parser.rs:103-104 | the release-mode `+=` and `wrapping_add` on `u32`: the result is congruent to the mathematical sum modulo 2^32, and equal to it when it fits |
| Machine.WrapU64 | src/blk/parser.rs:67 | `0_u64.wrapping_sub(..)`: the result is congruent to the mathematical value modulo 2^64, and equal to it when it fits |
| Machine.WrapI64 | src/blk/parser.rs:100 | the release-mode `amount +=` on `i64`: the result is congruent to the sum modulo 2^64, and equal to it when it is within the `i64` range |
| Machine.U64AsI64 | src/blk/parser.rs:72 | `as i64` on a `u64` keeps the 64 bits: the result is congruent modulo 2^64 and non-negative exactly when the value is below 2^63 |
| Machine.U64AsI32 | src/blk/parser.rs:68 | `as i32` on a `u64` keeps the low 32 bits: the result is congruent modulo 2^32 |
| Machine.I32AsU32 | src/blk/parser.rs:104 | `block_diff as u32` keeps the 32 bits: the result is congruent modulo 2^32 and below 2^31 exactly for a non-negative value |
| Readers.OrU32 | src/blk/parser.rs:30-34 | the four ORs of shifted bytes never overlap: they give the little-endian sum of the bytes, below 2^32 |
| Readers.OrU64 | src/blk/parser.rs:39-48 | the eight ORs of shifted bytes give the little-endian sum of the bytes, below 2^64 |
| Readers.ParseU32 | src/blk/parser.rs:29-36 | fails exactly when fewer than 4 bytes remain; otherwise consumes exactly 4 bytes and yields their little-endian value |
| Readers.ParseU64 | src/blk/parser.rs:38-50 | fails exactly when fewer than 8 bytes remain; otherwise consumes 8 bytes, yields their little-endian value, and its top bit is the top bit of the last byte |
| Readers.ParseI64 | src/blk/parser.rs:71-73 | same length behaviour as `parse_u64`; the value is congruent to the little-endian value modulo 2^64 and is negative exactly when the last byte's top bit is set (two's complement) |
| Readers.LittleEndianBytesRoundTrip | src/blk/parser.rs:29-50 | writing any value below 2^(8n) as n little-endian bytes and reading them back gives the value |
| Readers.ParseU32RoundTrip | src/blk/parser.rs:29-36 | `parse_u32` reads back any `u32` written as four little-endian bytes and leaves the following bytes untouched |
| Readers.ParseI64RoundTrip | src/blk/parser.rs:71-73 | `parse_i64` reads back any `i64` written as the eight little-endian bytes of its two's-complement pattern |
| Readers.VarShift | src/blk/parser.rs:57 | the shift `7 * num_bytes` is below 64 after the release-mode reduction, and is exactly `7 * num_bytes` for the first ten bytes (`num_bytes` up to 9) |
| Readers.Shl64 | src/blk/parser.rs:57 | `<<` on `u64` for a shift below 64: the bits shifted past bit 63 are dropped; no contract of its own, specified through `Readers.VarU64Value` |
| Readers.U64Or | src/blk/parser.rs:57 | bitwise OR on `u64`, kept below 2^64; no contract of its own, specified through `Readers.VarU64Value` and `Readers.ForcedGroupsIsOr` |
| Readers.OrVarByte | src/blk/parser.rs:57 | ORs `(byte as u64) << (7 * num_bytes)` into `val` with the continuation bit kept, built from `Readers.Shl64` and `Readers.U64Or`; no contract of its own, specified through `Readers.VarU64Value` and `Readers.ForcedGroupsIsOr` |
| Readers.VarLoop | src/blk/parser.rs:55-62 | the loop of `parse_var_u64`; no contract of its own, specified by `Readers.VarLoopShape` |
| Readers.ParseVarU64 | src/blk/parser.rs:52-63 | `parse_var_u64`; no contract of its own, specified by `Readers.ParseVarU64Shape`, `Readers.VarU64Value`, `Readers.VarU64BitSeven`, `Readers.VarU64Gaps` and `Readers.VarU64NotInjective` |
| Readers.VarLoopShape | src/blk/parser.rs:52-63 | the loop fails exactly when no byte ≤ 0x7F remains; otherwise it consumes up to and including the first such byte and counts the bytes consumed |
| Readers.ParseVarU64Shape | src/blk/parser.rs:52-63 | `parse_var_u64` fails exactly when every remaining byte is > 0x7F; otherwise it consumes a varint (≥ 1 byte, the last ≤ 0x7F, all others > 0x7F), leaves the bytes after it, and returns its length |
| Readers.VarintLengthOf | src/blk/parser.rs:55-61 | the varint at the front of any input is found at its own length, whatever follows |
| Readers.VarU64SingleByte | src/blk/parser.rs:56-60 | a single byte b ≤ 0x7F decodes to `(1, b)` |
| Readers.VarU64Value | src/blk/parser.rs:52-63 | for a varint of at most ten bytes followed by any input, the value is the LEB128 value OR'd with the continuation bit of every byte but the last (bit `7·(i+1)` for byte `i`), cut to 64 bits, which cuts nothing up to nine bytes; the count is its length and the rest is what follows |
| Readers.VarU64TenAt | src/blk/parser.rs:52-63 | a ten-byte varint decodes to its first group plus 128 times the later groups with bit 0 forced on, cut to 64 bits, and that value is at least 2^63 |
| Readers.VarintSign | src/blk/parser.rs:52-63 | the decoder's value of a varint of at most ten bytes is at least 2^63, and negative as the `i64` that line 100 adds to the amount, exactly when the varint has ten bytes |
| Readers.VarU64MinusOne | src/blk/parser.rs:52-63 | the ten bytes `FF`×9 `01` decode to 2^64−1, which is −1 as an `i64` |
| Readers.ForcedGroupsIsOr | src/blk/parser.rs:57 | the groups with bit 0 forced on by the preceding continuation bit are the LEB128 value OR'd with the continuation bits |
| Readers.VarU64NotLeb128 | src/blk/parser.rs:57 | the bytes `AC 02` have LEB128 value 300 but `parse_var_u64` returns 428 |
| Readers.VarU64BitSeven | src/blk/parser.rs:57 | every varint of two to ten bytes decodes to a value with bit 7 set, because the first byte's continuation bit is OR'd into bit 7 |
| Readers.VarU64Gaps | src/blk/parser.rs:52-63 | no varint of at most ten bytes decodes to a value of at least 128 with bit 7 clear |
| Readers.VarU64NotInjective | src/blk/parser.rs:57 | the distinct varints `80 00` and `80 01` both decode to 128 with length 2 |
| Readers.XorMask64 | src/blk/parser.rs:67 | `^` against the mask `0_u64.wrapping_sub(val & 1)`, which is all zeros or all ones, so the identity or the complement; no contract of its own, specified through `Readers.ZigZagDecodeValue` |
| Readers.ZigZagDecode | src/blk/parser.rs:67-68 | the ZigZag step of `parse_var_i32`, built from `Readers.XorMask64` and `Machine.U64AsI32`; no contract of its own, specified by `Readers.ZigZagDecodeValue`, `Readers.ZigZagRoundTrip` and `Readers.ZigZagRoundTripRaw` |
| Readers.ZigZagDecodeValue | src/blk/parser.rs:67-68 | raw 2n maps to n and raw 2n+1 to −n−1 for raw values below 2^32; for larger raw values, the same up to 32-bit truncation |
| Readers.ZigZagRoundTrip | src/blk/parser.rs:67-68 | decoding inverts the Protocol Buffers ZigZag encoding for every `i32` |
| Readers.ZigZagRoundTripRaw | src/blk/parser.rs:67-68 | the ZigZag encoding inverts the decoding on every raw value below 2^32 |
| Readers.ParseVarI32 | src/blk/parser.rs:65-69 | `parse_var_i32`; no contract of its own, specified by `Readers.ParseVarI32Shape` and `Readers.VarI32Value` |
| Readers.ParseVarI32Shape | src/blk/parser.rs:65-69 | `parse_var_i32` fails exactly when `parse_var_u64` does, consumes the same bytes, returns the same count and, for a raw value below 2^32, its ZigZag meaning |
| Readers.VarI32Value | src/blk/parser.rs:65-69 | on a varint of at most ten bytes, `parse_var_i32` returns its length and the ZigZag decoding of the decoder's value for it |
| Parser.ReadDelta | src/blk/parser.rs:98-102 | a successful pair of reads consumes at least one byte |
| Parser.DeltaLoop | src/blk/parser.rs:96-106 | the delta loop never grows the input, emits only change events, and on failure has used up the input |
| Parser.DeltaStep | src/blk/parser.rs:97-102 | one turn of the loop never grows the input, emits only change events, and on failure has used up the input; what a turn computes is stated by `Parser.DeltaLoopTurn` |
| Parser.DeltaTurn | src/blk/parser.rs:99-105 | the update after the two reads keeps the same three guarantees; its values are stated by `Parser.DeltaLoopTurn` |
| Parser.DeltaLoopTurn | src/blk/parser.rs:97-105 | unfolding step: while `bytes_read < num_bytes_total`, a turn adds both varint lengths to `bytes_read` (u32 wrap), adds the amount varint read as `i64` to the amount (wrap mod 2^64), adds the ZigZag delta to the height (u32 wrap), emits that change, and goes on with the bytes after the pair |
| Parser.DeltaLoopExhausted | src/blk/parser.rs:97-102 | while bytes are still owed, input that holds no complete varint fails the loop with no further event |
| Parser.HeightExhausted | src/blk/parser.rs:98-102 | while bytes are still owed, a complete amount varint followed by no complete height varint fails the loop with no further event |
| Parser.ParseRecord | src/blk/parser.rs:88-106 | a successful record consumes at least its 20 header bytes; a failing one uses up the input |
| Parser.ParseRecordIs | src/blk/parser.rs:88-106 | unfolding step: a record reads height, section length, amount and amount height in that order, emits `begin_block(height)` and the absolute change, then runs the delta loop with `bytes_read` starting at 12 from the record's own amount and height |
| Parser.RecordCases | src/blk/parser.rs:88-96 | under 4 bytes a record fails with no event; under 20 it fails after `begin_block`; otherwise the fields sit at offsets 0, 4, 8 and 16 and the delta loop starts at offset 20 with the record's own absolute values |
| Parser.RecordEventsShape | src/blk/parser.rs:88-105 | a record emits no event exactly when fewer than 4 bytes remain; otherwise its first event is `begin_block` with the height read first, and every later event is a change |
| Parser.RecordHeader | src/blk/parser.rs:90-94 | a record cut inside its 20 header bytes fails; a full header emits the absolute change (amount height, amount) as the second event |
| Parser.RecordNoDeltas | src/blk/parser.rs:96-97 | a section length ≤ 12 runs no delta turn: exactly one change is emitted and the record ends right after its header |
| Parser.RecordTrace | src/blk/parser.rs:88-106 | a successful record emits at least two events, begins with `begin_block`, and every `begin_block` is followed by a change |
| Parser.Parse | src/blk/parser.rs:75-108 | `parse`; no contract of its own, specified by `Parser.ParseShortTail`, `Parser.ParseBadMagic`, `Parser.ParseCases`, `Parser.ParseOpens`, `Parser.ParseTrace` and `Encoder.StreamRoundTrip` |
| Parser.ParseShortTail | src/blk/parser.rs:76-80 | fewer than 4 bytes at a record boundary, including none, is success with no event |
| Parser.ParseBadMagic | src/blk/parser.rs:81-84 | a full 4-byte value other than the magic is failure with no event |
| Parser.MagicBytes | src/blk/parser.rs:82 | the magic `0x004b4c42` is the bytes `42 4C 4B 00` read little-endian |
| Parser.ParseCases | src/blk/parser.rs:76-107 | unfolding step: `parse` at a record boundary: short tail succeeds, wrong magic fails, a failing record fails keeping its events, and a successful record's events are followed by those of the rest of the stream |
| Parser.ParseThen | src/blk/parser.rs:88-107 | unfolding step: after a successful record, `parse` continues on exactly the bytes the record left |
| Parser.ParseFails | src/blk/parser.rs:88-106 | unfolding step: a record that fails makes `parse` fail with the events emitted so far |
| Parser.ParseOpens | src/blk/parser.rs:76-89 | the trace of `parse` is empty or starts with `begin_block` |
| Parser.ParseTrace | src/blk/parser.rs:75-108 | on success, every `begin_block` in the trace is followed by a change |
| Encoder.DeltaLoopRoundTrip | src/blk/parser.rs:96-106 | delta pairs written after the header, with a section length counting exactly their bytes, are read back as the changes they describe (amount and height accumulated with wrap-around), and the loop stops right after the last pair |
| Encoder.RecordRoundTrip | src/blk/parser.rs:88-106 | a written record's fields parse as its begin event, its absolute change and its delta changes, leaving the following bytes |
| Encoder.StreamThenTail | src/blk/parser.rs:75-108 | records written back to back, followed by any bytes, parse as the records' events followed by whatever those bytes parse as |
| Encoder.StreamRoundTrip | src/blk/parser.rs:75-108 | a written stream parses successfully as exactly the events of its records |
| Encoder.DeltaLoopTruncated | src/blk/parser.rs:97-105 | delta pairs cut anywhere before their end, with the section length still counting their bytes, fail the loop |
| Encoder.RecordTruncated | src/blk/parser.rs:88-106 | a written record's fields cut anywhere before their end fail to parse as a record |
| Encoder.StreamTruncated | src/blk/parser.rs:76-107 | a written record cut inside its magic is a short tail, so `parse` succeeds with no event; cut anywhere after the magic, `parse` fails |
| Encoder.MagicWritten | src/blk/parser.rs:82 | the writer's magic is the bytes `42 4C 4B 00` |
| CheckSequential.New | src/main.rs:20-25 | a new checker has `last_block` = 2^32−1 and no changes, so the first block it expects is 0 |
| CheckSequential.OnBegin | src/main.rs:36-45 | `begin_block(h)` reports exactly when h is not `last_block + 1` (wrapping), and then one report of that expected block and h; it sets `last_block` to h either way, and leaves the change count alone |
| CheckSequential.OnChange | src/main.rs:47-49 | `change` adds one to the change count modulo 2^32 and leaves `last_block` alone |
| CheckSequential.OnEnd | src/main.rs:50-57 | `end_block(h)` reports exactly when h is not `last_block`, and then one report of `last_block` as expected and h as got |
| CheckSequential.EndAfterBegin | src/main.rs:36-57 | ending the block just begun never reports |
| CheckSequential.Apply | src/main.rs:35-49 | one callback for one event; no contract of its own, specified through `CheckSequential.OnBegin` and `CheckSequential.OnChange` |
| CheckSequential.Run | src/main.rs:35-49 | the callbacks of a trace in order; no contract of its own, specified by `CheckSequential.RunCountsChanges`, `CheckSequential.RunLastBlock` and `CheckSequential.RunQuiet` |
| CheckSequential.RunCountsChanges | src/main.rs:47-49 | after any trace, the change count is the starting count plus the number of change events, modulo 2^32 |
| CheckSequential.RunLastBlock | src/main.rs:36-45 | after any trace, `last_block` is the height of the last `begin_block`, or its starting value if there was none |
| CheckSequential.RunQuiet | src/main.rs:36-45 | a trace produces no report exactly when its `begin_block` heights count up by one from the block after the starting `last_block` |
| CheckSequential.QuietFromNew | src/main.rs:20-45 | from a new checker, no report exactly when the `begin_block` heights are 0, 1, 2, … (modulo 2^32) |
| CheckSequential.CheckWrittenStream | src/main.rs:20-49 | the parsed trace of a written stream of blocks 0, 1, 2, … produces no report, leaves `last_block` at the last block (2^32−1 if there are no blocks), and counts one change per record plus one per delta |

## Left out

- `src/blk/change_to_pixel.rs` is not part of this model. It is floating-point pixel mapping, and its `ChangeToPixel` constructor is unused.
- `src/blk/fast_file_source.rs` is not part of this model. It maps the file into memory; the model takes the bytes as a `seq<byte>` instead.
- `src/blk/mod.rs` only re-exports modules.
- `main` and `CheckSequential::print` in `src/main.rs` are left out. They handle arguments and write to the console. A printed line becomes a `Report(expected, got)` with its text left out.
- Debug-build overflow panics are left out, and the model wraps instead:
  - the `amount +=` of `src/blk/parser.rs:100`;
  - the `bytes_read +=` of lines 99 and 103;
  - the unchecked `last_block + 1` inside the message at `src/main.rs:40`;
  - the `num_changes += 1` at `src/main.rs:48`;
  - the shift at `src/blk/parser.rs:57` once `7 * num_bytes` reaches 64, from the eleventh byte of a varint on (a release build reduces the shift modulo 64, as `Readers.VarShift` does);
  - the `u32` overflow of `7 * num_bytes` at `src/blk/parser.rs:57` and of `num_bytes += 1` at line 58. Only a varint of over 613 million bytes reaches these, after the shift has already panicked.
- The model takes bytes as a subset type of `int` rather than a bit-vector, so every width shares one arithmetic.
- The three-argument `change(..., is_same_as_previous_change)` at `src/main.rs:47` is modelled with the trait's two arguments. The flag is never computed by `parse`, and the body ignores all the arguments.
- `end_block` has no event, because `parse` never calls it. `CheckSequential.OnEnd` models the callback on its own.
- Readers.VarU64Value: stated only for varints of at most ten bytes. From the eleventh byte on, a release build reduces the shift modulo 64, so later bytes land on low bits again. `VarLoop` models that reduction, and `ParseVarU64Shape` covers every length, but the value is not related to LEB128 there.
- Encoder.StreamRoundTrip: deltas are written as varints of at most ten bytes, so the round trip covers those streams only. The same bound holds for `Encoder.DeltaLoopRoundTrip`, `Encoder.RecordRoundTrip`, `Encoder.StreamThenTail`, `Encoder.DeltaLoopTruncated`, `Encoder.RecordTruncated`, `Encoder.StreamTruncated` and `CheckSequential.CheckWrittenStream`. Ten bytes cover every negative amount delta (`Readers.VarintSign`). A delta whose raw value is at least 128 with bit 7 clear has no varint of at most ten bytes (`Readers.VarU64Gaps`), so a stream holding one cannot be written at all.
- There is no varint round trip against a standard LEB128 writer, because the decoder does not invert one (`Readers.VarU64NotLeb128`). The round trip is stated against the decoder's own value instead.

=== FILE: check_sequential.dfy ===
/** `CheckSequential` of `src/main.rs`: the callback that checks that
    blocks come in order and counts the changes.

    Each callback becomes a pure function from the checker's state to its
    new state and the message it prints, if any; the printed text is left
    out and a message is the pair of numbers it shows.  `Run` feeds a
    trace of `Parser.Event`s through the callbacks in order. */
module CheckSequential {

  import opened Machine
  import opened Readers
  import opened Parser
  import opened Encoder

  /** The fields `last_block` and `num_changes`. */
  datatype Checker = Checker(lastBlock: u32, numChanges: u32)

  /** A line printed by a callback: the block it expected and the one it
      got. */
  datatype Report = Report(expected: u32, got: u32)

  /** A state and the reports printed on the way to it. */
  datatype Checked = Checked(checker: Checker, reports: seq<Report>)

  /** `CheckSequential::new`: `last_block` is `0_u32.wrapping_sub(1)`, so
      that the first block expected is 0. */
  function New(): (c: Checker)
    ensures c.lastBlock == MAX_U32 && c.numChanges == 0
    ensures WrapU32(c.lastBlock + 1) == 0
  {
    Checker(WrapU32(0 - 1), 0)
  }

  /** `begin_block`: reports unless the height is the one after
      `last_block` (with wrap-around), and records the height either way.
      The count of changes is untouched. */
  function OnBegin(c: Checker, blockHeight: u32): (r: Checked)
    ensures r.checker == Checker(blockHeight, c.numChanges)
    ensures |r.reports| <= 1
    ensures r.reports == [] <==> blockHeight == WrapU32(c.lastBlock + 1)
    ensures r.reports != [] ==> r.reports == [Report(WrapU32(c.lastBlock + 1), blockHeight)]
  {
    var expected := WrapU32(c.lastBlock + 1);
    var reports := if blockHeight != expected then [Report(expected, blockHeight)] else [];
    Checked(c.(lastBlock := blockHeight), reports)
  }

  /** `change`: one more change, with `u32` wrap-around; the block height
      and amount are ignored. */
  function OnChange(c: Checker): (r: Checker)
    ensures r.lastBlock == c.lastBlock
    ensures (r.numChanges - c.numChanges) % TWO_32 == 1
  {
    c.(numChanges := WrapU32(c.numChanges + 1))
  }

  /** `end_block`: reports unless the height is the last one begun.  It
      changes no state.  `parse` never calls it, so `Run` has no case for
      it. */
  function OnEnd(c: Checker, blockHeight: u32): (r: seq<Report>)
    ensures r == [] <==> blockHeight == c.lastBlock
    ensures r != [] ==> r == [Report(c.lastBlock, blockHeight)]
  {
    if blockHeight != c.lastBlock then [Report(c.lastBlock, blockHeight)] else []
  }

  /** Ending the block just begun reports nothing. */
  lemma EndAfterBegin(c: Checker, blockHeight: u32)
    ensures OnEnd(OnBegin(c, blockHeight).checker, blockHeight) == []
  {
  }

  /** One callback. */
  function Apply(c: Checker, e: Event): Checked
  {
    match e
    case BeginBlock(h) => OnBegin(c, h)
    case Change(_, _) => Checked(OnChange(c), [])
  }

  /** The callbacks of a trace, in order. */
  function Run(c: Checker, evs: seq<Event>): Checked
    decreases |evs|
  {
    if |evs| == 0 then Checked(c, [])
    else
      var first := Apply(c, evs[0]);
      var more := Run(first.checker, evs[1..]);
      Checked(more.checker, first.reports + more.reports)
  }

  // ---------------------------------------------------------------------
  // Reference views of a trace
  // ---------------------------------------------------------------------

  /** The heights of the begin events, in order. */
  function BeginHeights(evs: seq<Event>): seq<u32>
    decreases |evs|
  {
    if |evs| == 0 then []
    else (if evs[0].BeginBlock? then [evs[0].blockHeight] else []) + BeginHeights(evs[1..])
  }

  /** The number of change events. */
  function CountChanges(evs: seq<Event>): nat
    decreases |evs|
  {
    if |evs| == 0 then 0
    else (if evs[0].Change? then 1 else 0) + CountChanges(evs[1..])
  }

  /** Heights that go up by one from the block after `last`, with
      wrap-around. */
  predicate Consecutive(last: u32, hs: seq<u32>)
  {
    forall i | 0 <= i < |hs| :: hs[i] == WrapU32(last + 1 + i)
  }

  // ---------------------------------------------------------------------
  // What a run computes
  // ---------------------------------------------------------------------

  /** `num_changes` counts the change events, modulo 2^32. */
  lemma {:induction false} RunCountsChanges(c: Checker, evs: seq<Event>)
    ensures Run(c, evs).checker.numChanges == WrapU32(c.numChanges + CountChanges(evs))
    decreases |evs|
  {
    if |evs| > 0 {
      var first := Apply(c, evs[0]);
      RunCountsChanges(first.checker, evs[1..]);
      var k := CountChanges(evs[1..]);
      if evs[0].Change? {
        WrapU32Twice(c.numChanges + 1, k);
      }
    }
  }

  /** `last_block` is the height of the last begin event, or where it
      started when there is none. */
  lemma {:induction false} RunLastBlock(c: Checker, evs: seq<Event>)
    ensures var hs := BeginHeights(evs);
      Run(c, evs).checker.lastBlock == if |hs| == 0 then c.lastBlock else hs[|hs| - 1]
    decreases |evs|
  {
    if |evs| > 0 {
      var first := Apply(c, evs[0]);
      RunLastBlock(first.checker, evs[1..]);
    }
  }

  /** Counting on from `h`, the block after `last`, is counting on from
      `last` one step later. */
  lemma CountOn(last: u32, h: u32, i: int)
    requires h == WrapU32(last + 1)
    ensures WrapU32(h + 1 + i) == WrapU32(last + 1 + (i + 1))
  {
    WrapU32Twice(last + 1, 1 + i);
  }

  lemma ConsecutiveStep(last: u32, h: u32, hs: seq<u32>, all: seq<u32>)
    requires all == [h] + hs
    ensures Consecutive(last, all) <==> h == WrapU32(last + 1) && Consecutive(h, hs)
  {
    if h == WrapU32(last + 1) {
      if Consecutive(h, hs) {
        forall i | 0 <= i < |all| ensures all[i] == WrapU32(last + 1 + i) {
          if i > 0 {
            assert all[i] == hs[i - 1];
            CountOn(last, h, i - 1);
          }
        }
      }
      if Consecutive(last, all) {
        forall i | 0 <= i < |hs| ensures hs[i] == WrapU32(h + 1 + i) {
          assert all[i + 1] == hs[i];
          CountOn(last, h, i);
        }
      }
    } else {
      assert all[0] == h;
    }
  }

  /** The check prints nothing exactly when the begin heights go up by one
      from the block after the starting `last_block`. */
  lemma {:induction false} RunQuiet(c: Checker, evs: seq<Event>)
    ensures Run(c, evs).reports == [] <==> Consecutive(c.lastBlock, BeginHeights(evs))
    decreases |evs|
  {
    if |evs| > 0 {
      var first := Apply(c, evs[0]);
      var more := Run(first.checker, evs[1..]);
      assert Run(c, evs).reports == first.reports + more.reports;
      RunQuiet(first.checker, evs[1..]);
      var hs := BeginHeights(evs[1..]);
      if evs[0].BeginBlock? {
        var h := evs[0].blockHeight;
        assert BeginHeights(evs) == [h] + hs;
        ConsecutiveStep(c.lastBlock, h, hs, BeginHeights(evs));
      } else {
        assert BeginHeights(evs) == hs;
      }
    }
  }

  /** Counting on from `MAX_U32` starts at 0. */
  lemma CountFromMax(i: int)
    ensures WrapU32(MAX_U32 + 1 + i) == WrapU32(i)
  {
    WrapU32Twice(TWO_32, i);
  }

  /** From a new checker: silent exactly when the blocks are 0, 1, 2, ...
      (modulo 2^32). */
  lemma QuietFromNew(evs: seq<Event>, c: Checker, hs: seq<u32>)
    requires c == New() && hs == BeginHeights(evs)
    ensures Run(c, evs).reports == [] <==> forall i | 0 <= i < |hs| :: hs[i] == WrapU32(i)
  {
    RunQuiet(c, evs);
    forall i | 0 <= i < |hs| ensures WrapU32(c.lastBlock + 1 + i) == WrapU32(i) {
      CountFromMax(i);
    }
  }

  // ---------------------------------------------------------------------
  // The checker on a written stream
  // ---------------------------------------------------------------------

  lemma BeginHeightsAppend(a: seq<Event>, b: seq<Event>)
    ensures BeginHeights(a + b) == BeginHeights(a) + BeginHeights(b)
    ensures CountChanges(a + b) == CountChanges(a) + CountChanges(b)
  {
    if |a| > 0 {
      assert (a + b)[1..] == a[1..] + b;
      BeginHeightsAppend(a[1..], b);
    } else {
      assert a + b == b;
    }
  }

  lemma {:induction false} ChangesOnly(evs: seq<Event>)
    requires AllChanges(evs)
    ensures BeginHeights(evs) == [] && CountChanges(evs) == |evs|
    decreases |evs|
  {
    if |evs| > 0 {
      assert AllChanges(evs[1..]) by {
        forall i | 0 <= i < |evs[1..]| ensures evs[1..][i].Change? {
          assert evs[1..][i] == evs[i + 1];
        }
      }
      ChangesOnly(evs[1..]);
    }
  }

  lemma {:induction false} DeltaEventsChanges(amount: i64, height: u32, ds: seq<Delta>)
    requires ValidDeltas(ds)
    ensures AllChanges(DeltaEvents(amount, height, ds)) && |DeltaEvents(amount, height, ds)| == |ds|
    decreases |ds|
  {
    if |ds| > 0 {
      ValidDeltasTail(ds);
      var amount' := WrapI64(amount + U64AsI64(VarintValue(ds[0].amountVarint)));
      var height' := WrapU32(height + I32AsU32(ZigZagDecode(VarintValue(ds[0].heightVarint))));
      DeltaEventsCons(amount, height, ds, amount', height');
      DeltaEventsChanges(amount', height', ds[1..]);
      var evs := DeltaEvents(amount, height, ds);
      forall i | 0 <= i < |evs| ensures evs[i].Change? {
        if i > 0 {
          assert evs[i] == DeltaEvents(amount', height', ds[1..])[i - 1];
        }
      }
    }
  }

  /** The number of changes a record reports: its absolute change and one
      per delta. */
  function RecordChanges(recs: seq<BlockRecord>): nat
    decreases |recs|
  {
    if |recs| == 0 then 0 else 1 + |recs[0].deltas| + RecordChanges(recs[1..])
  }

  /** A record begins its block once and reports one change more than it
      has deltas. */
  lemma RecordView(rec: BlockRecord, evs: seq<Event>)
    requires WellFramed(rec) && evs == RecordEvents(rec)
    ensures BeginHeights(evs) == [rec.height]
    ensures CountChanges(evs) == 1 + |rec.deltas|
  {
    var deltas := DeltaEvents(rec.amount, rec.amountHeight, rec.deltas);
    DeltaEventsChanges(rec.amount, rec.amountHeight, rec.deltas);
    BeginThenChanges(rec.height, Change(rec.amountHeight, rec.amount), deltas, evs);
  }

  /** A begin event, then only changes: one height, every other event a
      change. */
  lemma BeginThenChanges(h: u32, c: Event, deltas: seq<Event>, evs: seq<Event>)
    requires c.Change? && AllChanges(deltas) && evs == [BeginBlock(h), c] + deltas
    ensures BeginHeights(evs) == [h]
    ensures CountChanges(evs) == 1 + |deltas|
  {
    ChangesOnly(deltas);
    assert evs[1..] == [c] + deltas;
    assert evs[1..][1..] == deltas;
  }

  lemma {:induction false} StreamView(recs: seq<BlockRecord>, evs: seq<Event>)
    requires AllWellFramed(recs) && evs == StreamEvents(recs)
    ensures |BeginHeights(evs)| == |recs|
    ensures forall i | 0 <= i < |recs| :: BeginHeights(evs)[i] == recs[i].height
    ensures CountChanges(evs) == RecordChanges(recs)
    decreases |recs|
  {
    if |recs| > 0 {
      AllWellFramedTail(recs);
      var first := RecordEvents(recs[0]);
      var more := StreamEvents(recs[1..]);
      RecordView(recs[0], first);
      StreamView(recs[1..], more);
      BeginHeightsAppend(first, more);
      var hs := BeginHeights(evs);
      assert hs == [recs[0].height] + BeginHeights(more);
      forall i | 0 <= i < |recs| ensures hs[i] == recs[i].height {
        if i > 0 {
          assert hs[i] == BeginHeights(more)[i - 1];
        }
      }
    }
  }

  /** From a new checker, `num_changes` is the number of changes modulo
      2^32. */
  lemma CountFromNew(c: Checker, evs: seq<Event>, n: nat, out: Checked)
    requires c == New() && n == CountChanges(evs) && out == Run(c, evs)
    ensures out.checker.numChanges == WrapU32(n)
  {
    RunCountsChanges(c, evs);
    assert c.numChanges + n == n;
  }

  /** The events of blocks 0, 1, 2, ... pass the check silently. */
  lemma CheckEvents(recs: seq<BlockRecord>, evs: seq<Event>, c: Checker, out: Checked)
    requires AllWellFramed(recs)
    requires forall i | 0 <= i < |recs| :: recs[i].height == i
    requires evs == StreamEvents(recs) && c == New() && out == Run(c, evs)
    ensures out.reports == []
    ensures out.checker.lastBlock == (if |recs| == 0 then MAX_U32 else |recs| - 1)
    ensures out.checker.numChanges == WrapU32(RecordChanges(recs))
  {
    StreamView(recs, evs);
    var hs := BeginHeights(evs);
    QuietFromNew(evs, c, hs);
    forall i | 0 <= i < |hs| ensures hs[i] == WrapU32(i) {
      assert hs[i] == recs[i].height;
    }
    RunLastBlock(c, evs);
    CountFromNew(c, evs, CountChanges(evs), out);
  }

  /** A written stream of blocks 0, 1, 2, ... passes the check silently,
      ends with `last_block` at its last block and counts every change. */
  lemma CheckWrittenStream(recs: seq<BlockRecord>)
    requires AllWellFramed(recs)
    requires forall i | 0 <= i < |recs| :: recs[i].height == i
    ensures var out := Run(New(), Parse(EncodeStream(recs)).events);
      && out.reports == []
      && out.checker.lastBlock == (if |recs| == 0 then MAX_U32 else |recs| - 1)
      && out.checker.numChanges == WrapU32(RecordChanges(recs))
  {
    StreamRoundTrip(recs);
    CheckEvents(recs, StreamEvents(recs), New(), Run(New(), StreamEvents(recs)));
  }
}

=== FILE: encoder.dfy ===
/** A reference writer for the `blk` record stream, and the round trip
    through `Parser.Parse`.

    The writer lays a record out the way the decoder expects it: magic,
    block height, section length, absolute amount and height, each
    little-endian, then the delta varints.  The section length counts the
    twelve bytes of the absolute amount and height plus the delta bytes, so
    the delta loop stops right after the last delta.  The deltas are given
    as varint bytes; the events they should produce are computed from the
    reference `VarintValue`, not from the loop of `parse_var_u64`. */
module Encoder {

  import opened Machine
  import opened Maybe
  import opened Readers
  import opened Parser

  /** One delta pair: the amount varint and the ZigZag height varint. */
  datatype Delta = Delta(amountVarint: seq<byte>, heightVarint: seq<byte>)

  /** The content of one record. */
  datatype BlockRecord = BlockRecord(height: u32, amount: i64, amountHeight: u32, deltas: seq<Delta>)

  predicate ValidDelta(d: Delta)
  {
    && IsVarint(d.amountVarint) && |d.amountVarint| <= 10
    && IsVarint(d.heightVarint) && |d.heightVarint| <= 10
  }

  predicate ValidDeltas(ds: seq<Delta>)
  {
    forall i | 0 <= i < |ds| :: ValidDelta(ds[i])
  }

  lemma ValidDeltasTail(ds: seq<Delta>)
    requires ValidDeltas(ds) && |ds| >= 1
    ensures ValidDelta(ds[0]) && ValidDeltas(ds[1..])
  {
    forall i | 0 <= i < |ds[1..]| ensures ValidDelta(ds[1..][i]) {
      assert ds[1..][i] == ds[i + 1];
    }
  }

  function DeltaBytes(ds: seq<Delta>): seq<byte>
  {
    if |ds| == 0 then [] else ds[0].amountVarint + ds[0].heightVarint + DeltaBytes(ds[1..])
  }

  /** The section length field: the absolute amount and height and the
      deltas. */
  function SectionLength(rec: BlockRecord): nat
  {
    ABSOLUTE_BYTES + |DeltaBytes(rec.deltas)|
  }

  /** A record the writer can lay out: valid varints, and a section length
      that fits its `u32` field. */
  predicate WellFramed(rec: BlockRecord)
  {
    ValidDeltas(rec.deltas) && SectionLength(rec) < TWO_32
  }

  predicate AllWellFramed(recs: seq<BlockRecord>)
  {
    forall i | 0 <= i < |recs| :: WellFramed(recs[i])
  }

  /** The fields of a record after its magic. */
  function RecordFields(rec: BlockRecord): seq<byte>
    requires WellFramed(rec)
  {
    LittleEndianBytes(rec.height, 4)
      + (LittleEndianBytes(SectionLength(rec), 4)
      + (LittleEndianBytes(I64AsU64(rec.amount), 8)
      + (LittleEndianBytes(rec.amountHeight, 4)
      + DeltaBytes(rec.deltas))))
  }

  function EncodeRecord(rec: BlockRecord): seq<byte>
    requires WellFramed(rec)
  {
    LittleEndianBytes(MAGIC, 4) + RecordFields(rec)
  }

  function EncodeStream(recs: seq<BlockRecord>): seq<byte>
    requires AllWellFramed(recs)
  {
    if |recs| == 0 then [] else EncodeRecord(recs[0]) + EncodeStream(recs[1..])
  }

  /** The changes the deltas describe, starting from `amount` and `height`:
      amounts add up with `i64` wrap-around, heights with `u32`
      wrap-around of the ZigZag-decoded difference. */
  function DeltaEvents(amount: i64, height: u32, ds: seq<Delta>): seq<Event>
    requires ValidDeltas(ds)
    decreases |ds|
  {
    if |ds| == 0 then []
    else
      var amount' := WrapI64(amount + U64AsI64(VarintValue(ds[0].amountVarint)));
      var height' := WrapU32(height + I32AsU32(ZigZagDecode(VarintValue(ds[0].heightVarint))));
      ValidDeltasTail(ds);
      [Change(height', amount')] + DeltaEvents(amount', height', ds[1..])
  }

  function RecordEvents(rec: BlockRecord): seq<Event>
    requires WellFramed(rec)
  {
    [BeginBlock(rec.height), Change(rec.amountHeight, rec.amount)]
      + DeltaEvents(rec.amount, rec.amountHeight, rec.deltas)
  }

  function StreamEvents(recs: seq<BlockRecord>): seq<Event>
    requires AllWellFramed(recs)
  {
    if |recs| == 0 then [] else RecordEvents(recs[0]) + StreamEvents(recs[1..])
  }

  // ---------------------------------------------------------------------
  // Round trip
  // ---------------------------------------------------------------------

  lemma DeltaBytesCons(ds: seq<Delta>, tail: seq<byte>)
    requires |ds| >= 1 && ValidDelta(ds[0])
    ensures DeltaBytes(ds) + tail
         == ds[0].amountVarint + (ds[0].heightVarint + (DeltaBytes(ds[1..]) + tail))
    ensures |DeltaBytes(ds)| == |ds[0].amountVarint| + |ds[0].heightVarint| + |DeltaBytes(ds[1..])|
    ensures |ds[0].amountVarint| >= 1 && |ds[0].heightVarint| >= 1
  {
    var a, h, more := ds[0].amountVarint, ds[0].heightVarint, DeltaBytes(ds[1..]);
    assert DeltaBytes(ds) == a + h + more;
    AppendAssoc(a, h, more);
    AppendAssoc(a + h, more, tail);
    AppendAssoc(a, h, more + tail);
  }

  /** The events of a non-empty delta list, one change at a time. */
  lemma DeltaEventsCons(amount: i64, height: u32, ds: seq<Delta>, amount': i64, height': u32)
    requires ValidDeltas(ds) && |ds| >= 1
    requires amount' == WrapI64(amount + U64AsI64(VarintValue(ds[0].amountVarint)))
    requires height' == WrapU32(height + I32AsU32(ZigZagDecode(VarintValue(ds[0].heightVarint))))
    ensures ValidDeltas(ds[1..])
    ensures DeltaEvents(amount, height, ds) == [Change(height', amount')] + DeltaEvents(amount', height', ds[1..])
  {
    ValidDeltasTail(ds);
  }

  /** One turn of the delta loop on the varints `a` and `h` of a delta,
      which `parse_var_u64` reads as `x` and `y`. */
  lemma DeltaPairStep(a: seq<byte>, h: seq<byte>, rest: seq<byte>, x: u64, y: u64,
                      bytesRead: u32, total: u32, amount: i64, height: u32,
                      bytesRead': u32, amount': i64, height': u32, r: Section)
    requires |a| <= 10 && |h| <= 10 && bytesRead < total
    requires ParseVarU64(a + (h + rest)) == Some(VarRead(|a|, x, h + rest))
    requires ParseVarI32(h + rest) == Some(VarRead(|h|, ZigZagDecode(y), rest))
    requires bytesRead' == WrapU32(WrapU32(bytesRead + |a|) + |h|)
    requires amount' == WrapI64(amount + U64AsI64(x))
    requires height' == WrapU32(height + I32AsU32(ZigZagDecode(y)))
    requires DeltaLoop(rest, bytesRead', total, amount', height') == r
    ensures DeltaLoop(a + (h + rest), bytesRead, total, amount, height)
         == Section(r.ok, [Change(height', amount')] + r.events, r.rest)
  {
    DeltaLoopTurn(a + (h + rest), bytesRead, total, amount, height,
      |a|, x, h + rest, |h|, ZigZagDecode(y), rest,
      bytesRead', amount', height', r);
  }

  /** The delta loop reads back every delta of a record and stops exactly
      after the last one, when `bytes_read` reaches the section length. */
  lemma {:induction false} DeltaLoopRoundTrip(
    ds: seq<Delta>, tail: seq<byte>, bytesRead: u32, total: u32, amount: i64, height: u32)
    requires ValidDeltas(ds) && total == bytesRead + |DeltaBytes(ds)|
    ensures DeltaLoop(DeltaBytes(ds) + tail, bytesRead, total, amount, height)
         == Section(true, DeltaEvents(amount, height, ds), tail)
    decreases |ds|
  {
    if |ds| == 0 {
      assert DeltaBytes(ds) + tail == tail;
    } else {
      ValidDeltasTail(ds);
      DeltaBytesCons(ds, tail);
      var amount' := WrapI64(amount + U64AsI64(VarintValue(ds[0].amountVarint)));
      var height' := WrapU32(height + I32AsU32(ZigZagDecode(VarintValue(ds[0].heightVarint))));
      var bytesRead' := WrapU32(WrapU32(bytesRead + |ds[0].amountVarint|) + |ds[0].heightVarint|);
      assert bytesRead' == bytesRead + |ds[0].amountVarint| + |ds[0].heightVarint|;
      DeltaLoopRoundTrip(ds[1..], tail, bytesRead', total, amount', height');
      VarU64Value(ds[0].amountVarint, ds[0].heightVarint + (DeltaBytes(ds[1..]) + tail));
      VarI32Value(ds[0].heightVarint, DeltaBytes(ds[1..]) + tail);
      DeltaPairStep(ds[0].amountVarint, ds[0].heightVarint, DeltaBytes(ds[1..]) + tail,
        VarintValue(ds[0].amountVarint), VarintValue(ds[0].heightVarint),
        bytesRead, total, amount, height, bytesRead', amount', height',
        Section(true, DeltaEvents(amount', height', ds[1..]), tail));
      DeltaEventsCons(amount, height, ds, amount', height');
    }
  }

  /** A record's fields read back as its events, and the delta loop stops
      right where the next record begins. */
  lemma RecordRoundTrip(rec: BlockRecord, tail: seq<byte>)
    requires WellFramed(rec)
    ensures ParseRecord(RecordFields(rec) + tail) == Section(true, RecordEvents(rec), tail)
  {
    var total: u32 := SectionLength(rec);
    var s4 := DeltaBytes(rec.deltas) + tail;
    var s3 := LittleEndianBytes(rec.amountHeight, 4) + s4;
    var s2 := LittleEndianBytes(I64AsU64(rec.amount), 8) + s3;
    var s1 := LittleEndianBytes(total, 4) + s2;
    var s := LittleEndianBytes(rec.height, 4) + s1;
    assert RecordFields(rec) + tail == s;
    ParseU32RoundTrip(rec.height, s1);
    ParseU32RoundTrip(total, s2);
    ParseI64RoundTrip(rec.amount, s3);
    ParseU32RoundTrip(rec.amountHeight, s4);
    var d := Section(true, DeltaEvents(rec.amount, rec.amountHeight, rec.deltas), tail);
    DeltaLoopRoundTrip(rec.deltas, tail, ABSOLUTE_BYTES, total, rec.amount, rec.amountHeight);
    ParseRecordIs(s, rec.height, s1, total, s2, rec.amount, s3, rec.amountHeight, s4, d);
  }

  lemma AppendAssoc<T>(a: seq<T>, b: seq<T>, c: seq<T>)
    ensures (a + b) + c == a + (b + c)
  {
  }

  lemma AllWellFramedTail(recs: seq<BlockRecord>)
    requires AllWellFramed(recs) && |recs| >= 1
    ensures WellFramed(recs[0]) && AllWellFramed(recs[1..])
  {
    assert forall i | 0 <= i < |recs[1..]| :: recs[1..][i] == recs[i + 1];
  }

  /** A written stream is its first record's magic and fields, then the
      rest of the stream. */
  lemma StreamCons(recs: seq<BlockRecord>, tail: seq<byte>)
    requires AllWellFramed(recs) && |recs| >= 1
    ensures WellFramed(recs[0]) && AllWellFramed(recs[1..])
    ensures EncodeStream(recs) + tail
         == LittleEndianBytes(MAGIC, 4) + (RecordFields(recs[0]) + (EncodeStream(recs[1..]) + tail))
    ensures StreamEvents(recs) == RecordEvents(recs[0]) + StreamEvents(recs[1..])
  {
    AllWellFramedTail(recs);
    var magic := LittleEndianBytes(MAGIC, 4);
    var fields := RecordFields(recs[0]);
    var more := EncodeStream(recs[1..]);
    AppendAssoc(magic + fields, more, tail);
    AppendAssoc(magic, fields, more + tail);
  }

  /** One written record in front of any bytes parses as its events, then
      as whatever those bytes parse as. */
  lemma RecordThenRest(rec: BlockRecord, rest: seq<byte>, more: Outcome)
    requires WellFramed(rec) && more == Parse(rest)
    ensures Parse(LittleEndianBytes(MAGIC, 4) + (RecordFields(rec) + rest))
         == Outcome(more.ok, RecordEvents(rec) + more.events)
  {
    var fields := RecordFields(rec) + rest;
    ParseU32RoundTrip(MAGIC, fields);
    RecordRoundTrip(rec, rest);
    ParseThen(LittleEndianBytes(MAGIC, 4) + fields, Section(true, RecordEvents(rec), rest), more);
  }

  /** Records written one after the other and followed by any bytes parse
      as their events, then as whatever those bytes parse as. */
  lemma {:induction false} StreamThenTail(recs: seq<BlockRecord>, tail: seq<byte>)
    requires AllWellFramed(recs)
    ensures Parse(EncodeStream(recs) + tail)
         == Outcome(Parse(tail).ok, StreamEvents(recs) + Parse(tail).events)
    decreases |recs|
  {
    if |recs| == 0 {
      assert EncodeStream(recs) + tail == tail;
      assert StreamEvents(recs) + Parse(tail).events == Parse(tail).events;
    } else {
      StreamCons(recs, tail);
      var rest := EncodeStream(recs[1..]) + tail;
      StreamThenTail(recs[1..], tail);
      RecordThenRest(recs[0], rest, Parse(rest));
      AppendAssoc(RecordEvents(recs[0]), StreamEvents(recs[1..]), Parse(tail).events);
    }
  }

  /** The round trip: a written stream parses successfully as exactly the
      events of its records. */
  lemma StreamRoundTrip(recs: seq<BlockRecord>)
    requires AllWellFramed(recs)
    ensures Parse(EncodeStream(recs)) == Outcome(true, StreamEvents(recs))
  {
    StreamThenTail(recs, []);
    assert EncodeStream(recs) + [] == EncodeStream(recs);
    ParseShortTail([]);
    assert StreamEvents(recs) + [] == StreamEvents(recs);
  }

  /** The written magic is the bytes `42 4C 4B 00`. */
  lemma MagicWritten()
    ensures LittleEndianBytes(MAGIC, 4) == [0x42, 0x4C, 0x4B, 0x00]
  {
  }

  // ---------------------------------------------------------------------
  // Truncation
  // ---------------------------------------------------------------------

  lemma PrefixInside<T>(a: seq<T>, b: seq<T>, m: nat)
    requires m <= |a|
    ensures (a + b)[..m] == a[..m]
  {
  }

  lemma PrefixPast<T>(a: seq<T>, b: seq<T>, m: nat)
    requires |a| <= m <= |a| + |b|
    ensures (a + b)[..m] == a + b[..m - |a|]
  {
  }

  /** A varint cut before its last byte has only continuation bytes. */
  lemma VarintCut(a: seq<byte>, m: nat)
    requires IsVarint(a) && m < |a|
    ensures forall i | 0 <= i < |a[..m]| :: a[..m][i] > 0x7F
  {
  }

  /** Delta pairs cut anywhere before their end fail the delta loop while
      the section length still asks for their bytes. */
  lemma {:induction false} DeltaLoopTruncated(
    ds: seq<Delta>, m: nat, bytesRead: u32, total: u32, amount: i64, height: u32)
    requires ValidDeltas(ds) && total == bytesRead + |DeltaBytes(ds)| && m < |DeltaBytes(ds)|
    ensures !DeltaLoop(DeltaBytes(ds)[..m], bytesRead, total, amount, height).ok
    decreases |ds|
  {
    ValidDeltasTail(ds);
    var a, h := ds[0].amountVarint, ds[0].heightVarint;
    var more := DeltaBytes(ds[1..]);
    AppendAssoc(a, h, more);
    assert DeltaBytes(ds) == a + (h + more);
    var p := DeltaBytes(ds)[..m];
    if m < |a| + |h| {
      CutInPair(a, h, more, p, m, bytesRead, total, amount, height);
    } else {
      var j := m - |a| - |h|;
      PrefixPast(a, h + more, m);
      PrefixPast(h, more, m - |a|);
      var rest := more[..j];
      assert p == a + (h + rest);
      var amount' := WrapI64(amount + U64AsI64(VarintValue(a)));
      var height' := WrapU32(height + I32AsU32(ZigZagDecode(VarintValue(h))));
      var bytesRead' := WrapU32(WrapU32(bytesRead + |a|) + |h|);
      assert bytesRead' == bytesRead + |a| + |h|;
      DeltaLoopTruncated(ds[1..], j, bytesRead', total, amount', height');
      VarU64Value(a, h + rest);
      VarI32Value(h, rest);
      DeltaPairStep(a, h, rest, VarintValue(a), VarintValue(h),
        bytesRead, total, amount, height, bytesRead', amount', height',
        DeltaLoop(rest, bytesRead', total, amount', height'));
    }
  }

  /** The case of `DeltaLoopTruncated` where the cut falls inside the first
      delta: inside its amount varint or inside its height varint. */
  lemma CutInPair(a: seq<byte>, h: seq<byte>, more: seq<byte>, p: seq<byte>, m: nat,
                  bytesRead: u32, total: u32, amount: i64, height: u32)
    requires IsVarint(a) && IsVarint(h) && |a| <= 10 && |h| <= 10
    requires bytesRead < total && m < |a| + |h| && p == (a + (h + more))[..m]
    ensures !DeltaLoop(p, bytesRead, total, amount, height).ok
  {
    if m < |a| {
      PrefixInside(a, h + more, m);
      VarintCut(a, m);
      DeltaLoopExhausted(p, bytesRead, total, amount, height);
    } else {
      var j := m - |a|;
      PrefixPast(a, h + more, m);
      PrefixInside(h, more, j);
      assert p == a + h[..j];
      VarU64Value(a, h[..j]);
      VarintCut(h, j);
      HeightExhausted(p, bytesRead, total, amount, height, |a|, VarintValue(a), h[..j]);
    }
  }

  /** A record's fields cut anywhere before their end fail to parse as a
      record. */
  lemma RecordTruncated(rec: BlockRecord, k: nat)
    requires WellFramed(rec) && k < |RecordFields(rec)|
    ensures !ParseRecord(RecordFields(rec)[..k]).ok
  {
    var fields := RecordFields(rec);
    var prefix := fields[..k];
    if k < 20 {
      RecordHeader(prefix);
    } else {
      var total: u32 := SectionLength(rec);
      var db := DeltaBytes(rec.deltas);
      var s4 := db[..k - 20];
      var d4 := LittleEndianBytes(rec.amountHeight, 4);
      var d3 := LittleEndianBytes(I64AsU64(rec.amount), 8);
      var d2 := LittleEndianBytes(total, 4);
      var d1 := LittleEndianBytes(rec.height, 4);
      PrefixPast(d1, d2 + (d3 + (d4 + db)), k);
      PrefixPast(d2, d3 + (d4 + db), k - 4);
      PrefixPast(d3, d4 + db, k - 8);
      PrefixPast(d4, db, k - 16);
      var s3 := d4 + s4;
      var s2 := d3 + s3;
      var s1 := d2 + s2;
      assert prefix == d1 + s1;
      ParseU32RoundTrip(rec.height, s1);
      ParseU32RoundTrip(total, s2);
      ParseI64RoundTrip(rec.amount, s3);
      ParseU32RoundTrip(rec.amountHeight, s4);
      var d := DeltaLoop(s4, ABSOLUTE_BYTES, total, rec.amount, rec.amountHeight);
      DeltaLoopTruncated(rec.deltas, k - 20, ABSOLUTE_BYTES, total, rec.amount, rec.amountHeight);
      ParseRecordIs(prefix, rec.height, s1, total, s2, rec.amount, s3, rec.amountHeight, s4, d);
    }
  }

  /** A written record cut short: within its magic, the bytes are a short
      tail and `parse` succeeds with no event; from the magic on, it
      fails. */
  lemma StreamTruncated(rec: BlockRecord, k: nat)
    requires WellFramed(rec) && k < |EncodeRecord(rec)|
    ensures k < 4 ==> Parse(EncodeRecord(rec)[..k]) == Outcome(true, [])
    ensures k >= 4 ==> !Parse(EncodeRecord(rec)[..k]).ok
  {
    var prefix := EncodeRecord(rec)[..k];
    if k < 4 {
      ParseShortTail(prefix);
    } else {
      var fields := RecordFields(rec);
      var cut := fields[..k - 4];
      PrefixPast(LittleEndianBytes(MAGIC, 4), fields, k);
      assert prefix == LittleEndianBytes(MAGIC, 4) + cut;
      RecordTruncated(rec, k - 4);
      assert !ParseRecord(cut).ok;
      MagicThenCut(prefix, cut);
      assert !Parse(prefix).ok;
    }
  }

  /** Bytes that open with the magic and go on with a record that fails
      to parse make `parse` fail. */
  lemma MagicThenCut(prefix: seq<byte>, cut: seq<byte>)
    requires prefix == LittleEndianBytes(MAGIC, 4) + cut
    ensures !ParseRecord(cut).ok ==> !Parse(prefix).ok
  {
    assert prefix[4..] == cut;
    ParseU32RoundTrip(MAGIC, cut);
    if !ParseRecord(cut).ok {
      ParseFails(prefix, ParseRecord(cut));
    }
  }
}

=== FILE: machine.dfy ===
/** Fixed-width machine integers and the bit operations the decoder uses,
    modelled on unbounded integers.

    Rust's `u32`, `i32`, `u64` and `i64` become subset types of `int`.  The
    program is modelled as a release build: additions wrap around, and a shift
    amount is reduced modulo the bit width.  `|` on unsigned values is the
    recursive `BitOr` below. */
module Machine {

  const TWO_31: int := 0x8000_0000
  const TWO_32: int := 0x1_0000_0000
  const TWO_63: int := 0x8000_0000_0000_0000
  const TWO_64: int := 0x1_0000_0000_0000_0000

  /** `u32::MAX`, also what `0_u32.wrapping_sub(1)` evaluates to. */
  const MAX_U32: int := TWO_32 - 1
  /** `u64::MAX`: the all-ones 64-bit pattern. */
  const MAX_U64: int := TWO_64 - 1

  /** A byte of the input, Rust's `u8`. */
  type byte = x: int | 0 <= x < 256

  type u32 = x: int | 0 <= x < TWO_32
  type u64 = x: int | 0 <= x < TWO_64
  type i32 = x: int | -TWO_31 <= x < TWO_31
  type i64 = x: int | -TWO_63 <= x < TWO_63

  /** The `u32` congruent to `x` modulo 2^32: the result of a wrapping
      `u32` operation whose mathematical result is `x`. */
  function WrapU32(x: int): (r: u32)
    ensures (x - r) % TWO_32 == 0
    ensures 0 <= x < TWO_32 ==> r == x
  {
    x % TWO_32
  }

  /** The `u64` congruent to `x` modulo 2^64. */
  function WrapU64(x: int): (r: u64)
    ensures (x - r) % TWO_64 == 0
    ensures 0 <= x < TWO_64 ==> r == x
  {
    x % TWO_64
  }

  /** The `i64` congruent to `x` modulo 2^64: a wrapping `i64` operation
      whose mathematical result is `x`. */
  function WrapI64(x: int): (r: i64)
    ensures (x - r) % TWO_64 == 0
    ensures -TWO_63 <= x < TWO_63 ==> r == x
  {
    var t := x % TWO_64;
    if t < TWO_63 then t else t - TWO_64
  }

  /** `x as i64` for `x: u64`: the same 64 bits read as two's complement. */
  function U64AsI64(x: u64): (r: i64)
    ensures (x - r) % TWO_64 == 0
    ensures x < TWO_63 <==> r >= 0
  {
    if x < TWO_63 then x else x - TWO_64
  }

  /** `x as u64` for `x: i64`: the inverse reinterpretation. */
  function I64AsU64(x: i64): (r: u64)
    ensures (x - r) % TWO_64 == 0
    ensures U64AsI64(r) == x
  {
    if x >= 0 then x else x + TWO_64
  }

  /** `x as i32` for `x: u64`: keep the low 32 bits and read them as two's
      complement. */
  function U64AsI32(x: u64): (r: i32)
    ensures (x - r) % TWO_32 == 0
  {
    var t := x % TWO_32;
    if t < TWO_31 then t else t - TWO_32
  }

  /** `x as u32` for `x: i32`. */
  function I32AsU32(x: i32): (r: u32)
    ensures (x - r) % TWO_32 == 0
    ensures x >= 0 <==> r < TWO_31
  {
    if x >= 0 then x else x + TWO_32
  }

  /** `x << k` without overflow: `x` times `2^k`, one doubling per bit. */
  function Shl(x: nat, k: nat): nat
  {
    if k == 0 then x else 2 * Shl(x, k - 1)
  }

  /** `2^k`. */
  function Pow2(k: nat): nat
  {
    Shl(1, k)
  }

  /** Shifting zero gives zero: the base case `OrDisjoint` needs when the
      low operand is exhausted. */
  lemma {:induction false} ShlZero(k: nat)
    ensures Shl(0, k) == 0
  {
    if k > 0 {
      ShlZero(k - 1);
    }
  }

  /** Shifting distributes over addition. */
  lemma {:induction false} ShlAdd(a: nat, b: nat, k: nat)
    ensures Shl(a + b, k) == Shl(a, k) + Shl(b, k)
  {
    if k > 0 {
      ShlAdd(a, b, k - 1);
    }
  }

  lemma {:induction false} ShlMonotone(a: nat, b: nat, k: nat)
    requires a <= b
    ensures Shl(a, k) <= Shl(b, k)
  {
    if k > 0 {
      ShlMonotone(a, b, k - 1);
    }
  }

  /** Two shifts in a row shift by the sum. */
  lemma {:induction false} ShlShl(x: nat, j: nat, k: nat)
    ensures Shl(Shl(x, j), k) == Shl(x, j + k)
  {
    if k > 0 {
      ShlShl(x, j, k - 1);
    }
  }

  /** A shift never makes a number smaller. */
  lemma {:induction false} ShlGrows(x: nat, k: nat)
    ensures x <= Shl(x, k)
  {
    if k > 0 {
      ShlGrows(x, k - 1);
    }
  }

  lemma {:induction false} Pow2Monotone(j: nat, k: nat)
    requires j <= k
    ensures Pow2(j) <= Pow2(k)
  {
    ShlShl(1, j, k - j);
    ShlGrows(Pow2(j), k - j);
  }

  /** `x << 7` and `x << 8` are multiplications by constants. */
  lemma ShlSevenEight(x: nat)
    ensures Shl(x, 7) == 128 * x && Shl(x, 8) == 256 * x
  {
    assert Shl(x, 1) == 2 * x;
    assert Shl(x, 2) == 4 * x;
    assert Shl(x, 3) == 8 * x;
    assert Shl(x, 4) == 16 * x;
    assert Shl(x, 5) == 32 * x;
    assert Shl(x, 6) == 64 * x;
  }

  /** Shifts by whole bytes are multiplications by constants. */
  lemma ShlBytes(x: nat)
    ensures Shl(x, 8) == 0x100 * x && Shl(x, 16) == 0x1_0000 * x && Shl(x, 24) == 0x100_0000 * x
    ensures Shl(x, 32) == 0x1_0000_0000 * x && Shl(x, 40) == 0x100_0000_0000 * x
    ensures Shl(x, 48) == 0x1_0000_0000_0000 * x && Shl(x, 56) == 0x100_0000_0000_0000 * x
  {
    ShlSevenEight(x);
    ShlSevenEight(Shl(x, 8));
    ShlShl(x, 8, 8);
    ShlSevenEight(Shl(x, 16));
    ShlShl(x, 16, 8);
    ShlSevenEight(Shl(x, 24));
    ShlShl(x, 24, 8);
    ShlSevenEight(Shl(x, 32));
    ShlShl(x, 32, 8);
    ShlSevenEight(Shl(x, 40));
    ShlShl(x, 40, 8);
    ShlSevenEight(Shl(x, 48));
    ShlShl(x, 48, 8);
  }

  /** A number below `2^k` plus the shift of a number below `m` stays below
      the shift of `m`. */
  lemma ShlBelow(low: nat, x: nat, m: nat, k: nat)
    requires low < Pow2(k) && x < m
    ensures low + Shl(x, k) < Shl(m, k)
  {
    ShlAdd(1, x, k);
    ShlMonotone(x + 1, m, k);
  }

  /** The powers of two at the byte boundaries. */
  lemma Pow2Values()
    ensures Pow2(0) == 1 && Pow2(7) == 128 && Pow2(8) == 256
    ensures Pow2(16) == 0x1_0000 && Pow2(24) == 0x100_0000 && Pow2(32) == TWO_32
    ensures Pow2(40) == 0x100_0000_0000 && Pow2(48) == 0x1_0000_0000_0000
    ensures Pow2(56) == 0x100_0000_0000_0000 && Pow2(64) == TWO_64
  {
    ShlSevenEight(1);
    ShlBytes(1);
    ShlSevenEight(Pow2(56));
    ShlShl(1, 56, 8);
  }

  /** The one clause of `Pow2Values` the 64-bit readers need, stated on its
      own so that their proofs do not carry the other powers. */
  lemma Pow2Width()
    ensures Pow2(64) == TWO_64
  {
    Pow2Values();
  }

  /** `2^63`, the sign bit of a 64-bit value, and the width it doubles to. */
  lemma Pow2Sign()
    ensures Pow2(63) == TWO_63 && Pow2(64) == 2 * TWO_63
  {
    Pow2Width();
    assert Pow2(64) == 2 * Pow2(63);
  }

  /** A shift is a multiplication by a power of two. */
  lemma {:induction false} ShlIsMul(x: nat, k: nat)
    ensures Shl(x, k) == x * Pow2(k)
    decreases k
  {
    if k > 0 {
      ShlIsMul(x, k - 1);
      ShlIsMul(1, k - 1);
      assert Pow2(k) == 2 * Pow2(k - 1);
      assert Shl(x, k) == 2 * (x * Pow2(k - 1));
    }
  }

  /** Bitwise OR of two non-negative integers, bit by bit from the least
      significant end. */
  function BitOr(a: nat, b: nat): nat
    decreases a + b
  {
    if a == 0 && b == 0 then 0
    else 2 * BitOr(a / 2, b / 2) + (if a % 2 == 1 || b % 2 == 1 then 1 else 0)
  }

  lemma {:induction false} BitOrZero(a: nat)
    ensures BitOr(a, 0) == a && BitOr(0, a) == a
    decreases a
  {
    if a != 0 {
      BitOrZero(a / 2);
    }
  }

  /** OR keeps both operands' bits and adds no bit above them. */
  lemma {:induction false} BitOrBound(a: nat, b: nat, k: nat)
    requires a < Pow2(k) && b < Pow2(k)
    ensures BitOr(a, b) < Pow2(k)
    decreases k
  {
    if k == 0 {
      assert a == 0 && b == 0;
    } else if a != 0 || b != 0 {
      BitOrBound(a / 2, b / 2, k - 1);
    }
  }

  /** The defining equation of `BitOr`, also when both operands are zero. */
  lemma BitOrUnfold(a: nat, b: nat)
    ensures BitOr(a, b) == 2 * BitOr(a / 2, b / 2) + (if a % 2 == 1 || b % 2 == 1 then 1 else 0)
  {
  }

  /** Equal operands give equal results. This congruence and the next one
      are stated separately so that a caller can rewrite one operand
      without the solver unfolding `BitOr` or `Shl`. */
  lemma BitOrEqual(x: nat, y: nat, x': nat, y': nat)
    requires x == x' && y == y'
    ensures BitOr(x, y) == BitOr(x', y')
  {
  }

  /** Equal operands give equal shifts (see `BitOrEqual`). */
  lemma ShlEqual(x: nat, x': nat, k: nat)
    requires x == x'
    ensures Shl(x, k) == Shl(x', k)
  {
  }

  /** One bit of `BitOrSplit`: shifting both high parts left by one. */
  lemma BitOrShiftStep(a: nat, b: nat, px: nat, py: nat, pq: nat)
    requires BitOr(a / 2 + px, b / 2 + py) == BitOr(a / 2, b / 2) + pq
    ensures BitOr(a + 2 * px, b + 2 * py) == BitOr(a, b) + 2 * pq
  {
    var u, v := a + 2 * px, b + 2 * py;
    assert u / 2 == a / 2 + px && u % 2 == a % 2;
    assert v / 2 == b / 2 + py && v % 2 == b % 2;
    BitOrUnfold(u, v);
    BitOrUnfold(a, b);
  }

  /** OR works independently on the bits below position `k` and the bits at
      and above it. */
  lemma {:induction false} BitOrSplit(a: nat, b: nat, x: nat, y: nat, k: nat)
    requires a < Pow2(k) && b < Pow2(k)
    ensures BitOr(a + Shl(x, k), b + Shl(y, k)) == BitOr(a, b) + Shl(BitOr(x, y), k)
    decreases k
  {
    if k == 0 {
      assert a == 0 && b == 0;
    } else {
      var px, py, pq := Shl(x, k - 1), Shl(y, k - 1), Shl(BitOr(x, y), k - 1);
      BitOrSplit(a / 2, b / 2, x, y, k - 1);
      BitOrShiftStep(a, b, px, py, pq);
      assert a + Shl(x, k) == a + 2 * px;
      assert b + Shl(y, k) == b + 2 * py;
    }
  }

  /** OR of two numbers that agree on the bits below position `k`, which
      the first has and the second lacks. */
  lemma OrHigh(low: nat, k: nat, x: nat, y: nat)
    requires low < Pow2(k)
    ensures BitOr(low + Shl(x, k), Shl(y, k)) == low + Shl(BitOr(x, y), k)
  {
    BitOrSplit(low, 0, x, y, k);
    BitOrZero(low);
  }

  /** A set bit `k` under `low` merges with bit 0 of a number shifted by
      `k`. */
  lemma OrHighOne(low: nat, k: nat, b: nat)
    requires low < Pow2(k)
    ensures BitOr(low + Shl(1, k), Shl(b, k)) == low + Shl(SetLowBit(b), k)
  {
    OrHigh(low, k, 1, b);
    OrOne(b);
    ShlEqual(BitOr(1, b), SetLowBit(b), k);
  }

  /** OR with a number whose bits all lie at or above position `k` is
      addition. */
  lemma OrDisjoint(acc: nat, x: nat, k: nat)
    requires acc < Pow2(k)
    ensures BitOr(acc, Shl(x, k)) == acc + Shl(x, k)
  {
    OrHigh(acc, k, 0, x);
    ShlZero(k);
    BitOrZero(x);
  }

  /** `b | 1`: bit 0 set. */
  function SetLowBit(b: nat): nat
  {
    if b % 2 == 0 then b + 1 else b
  }

  lemma OrOne(b: nat)
    ensures BitOr(1, b) == SetLowBit(b) && BitOr(b, 1) == SetLowBit(b)
  {
    BitOrZero(b / 2);
  }
}

=== FILE: maybe.dfy ===
/** Rust's `Option`, which every reader of the decoder returns. */
module Maybe {

  datatype Option<+T> = None | Some(value: T)
}

=== FILE: parser.dfy ===
/** The record stream of `src/blk/parser.rs`: `parse` and the callback
    events it emits.

    A `blk` file is a sequence of records.  Each starts with the magic
    `0x004b4c42`, then holds the block height, the section length, an
    absolute amount and its height, and then delta pairs (an amount varint
    and a ZigZag height varint) until the bytes read since the section
    length reach it.  The callbacks become a trace of `Event`s, and the
    `Option<()>` result becomes the flag `ok`. */
module Parser {

  import opened Machine
  import opened Maybe
  import opened Readers

  /** The magic that opens every record: the bytes `42 4C 4B 00`. */
  const MAGIC: u32 := 0x004b4c42

  /** The bytes of a record that the section length counts before its
      deltas: the absolute amount (8) and its height (4). */
  const ABSOLUTE_BYTES: u32 := 4 + 8

  /** A call of the `BlockCallback` trait.  `end_block` is never called by
      `parse` and so has no event. */
  datatype Event =
    | BeginBlock(blockHeight: u32)
    | Change(blockHeight: u32, amountSatoshi: i64)

  /** What `parse` returns (`ok` for `Some(())`) and the callbacks it made
      on the way, including those made before a failure. */
  datatype Outcome = Outcome(ok: bool, events: seq<Event>)

  /** A part of the stream read with its events and the input left after
      it.  On failure the iterator has run dry, so nothing is left. */
  datatype Section = Section(ok: bool, events: seq<Event>, rest: seq<byte>)

  predicate AllChanges(evs: seq<Event>)
  {
    forall i | 0 <= i < |evs| :: evs[i].Change?
  }

  /** The two varints of one turn of the delta loop: the amount
      difference and the ZigZag block height difference. */
  datatype DeltaRead = DeltaRead(amountRead: VarRead<u64>, heightRead: VarRead<i32>)

  /** The two reads at the head of one turn of the delta loop; `None` when
      either runs out of input. */
  function ReadDelta(s: seq<byte>): (r: Option<DeltaRead>)
    ensures r.Some? ==> |r.value.heightRead.rest| < |s|
  {
    ParseVarU64Shape(s);
    match ParseVarU64(s)
    case None => None
    case Some(a) =>
      ParseVarU64Shape(a.rest);
      ParseVarI32Shape(a.rest);
      match ParseVarI32(a.rest)
      case None => None
      case Some(h) => Some(DeltaRead(a, h))
  }

  /** The `while bytes_read < num_bytes_total` loop of `parse`, with the
      running `bytes_read`, `amount` and `amount_block_height`. */
  function DeltaLoop(s: seq<byte>, bytesRead: u32, total: u32, amount: i64, height: u32): (r: Section)
    ensures |r.rest| <= |s|
    ensures !r.ok ==> r.rest == []
    ensures AllChanges(r.events)
    decreases |s|, 2
  {
    if bytesRead >= total then Section(true, [], s)
    else DeltaStep(s, bytesRead, total, amount, height)
  }

  /** One turn of the loop: the two reads, failing when either runs out of
      input, then the update. */
  function DeltaStep(s: seq<byte>, bytesRead: u32, total: u32, amount: i64, height: u32): (r: Section)
    ensures |r.rest| <= |s|
    ensures !r.ok ==> r.rest == []
    ensures AllChanges(r.events)
    decreases |s|, 1
  {
    match ReadDelta(s)
    case None => Section(false, [], [])
    case Some(DeltaRead(VarRead(c1, diff, _), VarRead(c2, blockDiff, s2))) =>
      DeltaTurn(c1, diff, c2, blockDiff, s2, bytesRead, total, amount, height)
  }

  /** The update after the reads of `c1` and `c2` bytes: `bytes_read` grows
      by both counts, the amount by `diff`, the height by `blockDiff`, and
      the new amount and height are reported before the loop goes on with
      `s2`. */
  function DeltaTurn(c1: u32, diff: u64, c2: u32, blockDiff: i32, s2: seq<byte>,
                     bytesRead: u32, total: u32, amount: i64, height: u32): (r: Section)
    ensures |r.rest| <= |s2|
    ensures !r.ok ==> r.rest == []
    ensures AllChanges(r.events)
    decreases |s2| + 1, 0
  {
    var bytesRead1 := WrapU32(bytesRead + c1);
    var amount1 := WrapI64(amount + U64AsI64(diff));
    var bytesRead2 := WrapU32(bytesRead1 + c2);
    var height1 := WrapU32(height + I32AsU32(blockDiff));
    var r := DeltaLoop(s2, bytesRead2, total, amount1, height1);
    Section(r.ok, [Change(height1, amount1)] + r.events, r.rest)
  }

  /** One unfolding of `ReadDelta` from the results of its two reads, kept
      apart so that callers reason about the reads without the readers'
      bodies in scope. */
  lemma ReadDeltaIs(s: seq<byte>, c1: u32, diff: u64, s1: seq<byte>, c2: u32, blockDiff: i32, s2: seq<byte>)
    requires ParseVarU64(s) == Some(VarRead(c1, diff, s1))
    requires ParseVarI32(s1) == Some(VarRead(c2, blockDiff, s2))
    ensures ReadDelta(s) == Some(DeltaRead(VarRead(c1, diff, s1), VarRead(c2, blockDiff, s2)))
  {
  }

  /** One unfolding of `DeltaTurn`, stated for the same reason as
      `ReadDeltaIs`. */
  lemma DeltaTurnIs(c1: u32, diff: u64, c2: u32, blockDiff: i32, s2: seq<byte>,
                    bytesRead: u32, total: u32, amount: i64, height: u32)
    ensures
      var amount' := WrapI64(amount + U64AsI64(diff));
      var height' := WrapU32(height + I32AsU32(blockDiff));
      var r := DeltaLoop(s2, WrapU32(WrapU32(bytesRead + c1) + c2), total, amount', height');
      DeltaTurn(c1, diff, c2, blockDiff, s2, bytesRead, total, amount, height)
        == Section(r.ok, [Change(height', amount')] + r.events, r.rest)
  {
  }

  /** One turn of the delta loop, given what its two varint reads return
      and the `bytes_read`, amount and height they lead to. */
  lemma DeltaLoopTurn(s: seq<byte>, bytesRead: u32, total: u32, amount: i64, height: u32,
                      c1: u32, diff: u64, s1: seq<byte>, c2: u32, blockDiff: i32, s2: seq<byte>,
                      bytesRead': u32, amount': i64, height': u32, r: Section)
    requires bytesRead < total
    requires ParseVarU64(s) == Some(VarRead(c1, diff, s1))
    requires ParseVarI32(s1) == Some(VarRead(c2, blockDiff, s2))
    requires bytesRead' == WrapU32(WrapU32(bytesRead + c1) + c2)
    requires amount' == WrapI64(amount + U64AsI64(diff))
    requires height' == WrapU32(height + I32AsU32(blockDiff))
    requires DeltaLoop(s2, bytesRead', total, amount', height') == r
    ensures DeltaLoop(s, bytesRead, total, amount, height) == Section(r.ok, [Change(height', amount')] + r.events, r.rest)
  {
    ReadDeltaIs(s, c1, diff, s1, c2, blockDiff, s2);
    DeltaTurnIs(c1, diff, c2, blockDiff, s2, bytesRead, total, amount, height);
  }

  /** One record after its magic: block height, section length, absolute
      amount and height, then the deltas. */
  function ParseRecord(s: seq<byte>): (r: Section)
    ensures r.ok ==> |r.rest| + 20 <= |s|
    ensures !r.ok ==> r.rest == []
  {
    match ParseU32(s)
    case None => Section(false, [], [])
    case Some(Read(height, s1)) =>
      var begin := [BeginBlock(height)];
      match ParseU32(s1)
      case None => Section(false, begin, [])
      case Some(Read(total, s2)) =>
        match ParseI64(s2)
        case None => Section(false, begin, [])
        case Some(Read(amount, s3)) =>
          match ParseU32(s3)
          case None => Section(false, begin, [])
          case Some(Read(amountHeight, s4)) =>
            var d := DeltaLoop(s4, ABSOLUTE_BYTES, total, amount, amountHeight);
            Section(d.ok, begin + [Change(amountHeight, amount)] + d.events, d.rest)
  }

  /** `parse`: records until fewer than four bytes remain at a record
      boundary (success) or a wrong magic or a short record (failure). */
  function Parse(s: seq<byte>): (r: Outcome)
    decreases |s|
  {
    match ParseU32(s)
    case None => Outcome(true, [])
    case Some(Read(magic, s1)) =>
      if magic != MAGIC then Outcome(false, [])
      else
        var rec := ParseRecord(s1);
        if !rec.ok then Outcome(false, rec.events)
        else
          var more := Parse(rec.rest);
          Outcome(more.ok, rec.events + more.events)
  }

  // ---------------------------------------------------------------------
  // Unfolding steps
  // ---------------------------------------------------------------------

  /** A record whose four header fields read as given: the begin event,
      the absolute change, then what the delta loop yields. */
  lemma ParseRecordIs(s: seq<byte>, height: u32, s1: seq<byte>, total: u32, s2: seq<byte>,
                      amount: i64, s3: seq<byte>, amountHeight: u32, s4: seq<byte>, d: Section)
    requires ParseU32(s) == Some(Read(height, s1))
    requires ParseU32(s1) == Some(Read(total, s2))
    requires ParseI64(s2) == Some(Read(amount, s3))
    requires ParseU32(s3) == Some(Read(amountHeight, s4))
    requires DeltaLoop(s4, ABSOLUTE_BYTES, total, amount, amountHeight) == d
    ensures ParseRecord(s) == Section(d.ok, [BeginBlock(height), Change(amountHeight, amount)] + d.events, d.rest)
  {
    assert [BeginBlock(height)] + [Change(amountHeight, amount)] == [BeginBlock(height), Change(amountHeight, amount)];
  }

  // ---------------------------------------------------------------------
  // Properties of `parse`
  // ---------------------------------------------------------------------

  /** Fewer than four bytes at a record boundary end the stream
      successfully, with no callback. */
  lemma ParseShortTail(s: seq<byte>)
    requires |s| < 4
    ensures Parse(s) == Outcome(true, [])
  {
  }

  /** A record that does not open with the magic fails at once, with no
      callback. */
  lemma ParseBadMagic(s: seq<byte>)
    requires |s| >= 4 && LittleEndian(s[..4]) != MAGIC
    ensures Parse(s) == Outcome(false, [])
  {
  }

  /** The magic is the bytes `42 4C 4B 00` read little-endian. */
  lemma MagicBytes(t: seq<byte>)
    requires t == [0x42, 0x4C, 0x4B, 0x00]
    ensures LittleEndian(t) == MAGIC
  {
    LittleEndianFour(t);
    assert t[..4] == t;
  }

  /** The `u32` at offset `k`. */
  lemma U32At(s: seq<byte>, k: nat)
    requires |s| >= k + 4
    ensures ParseU32(s[k..]) == Some(Read(LittleEndian(s[k..k + 4]), s[k + 4..]))
  {
    assert s[k..][..4] == s[k..k + 4];
    assert s[k..][4..] == s[k + 4..];
  }

  /** The `i64` at offset `k`. */
  lemma I64At(s: seq<byte>, k: nat)
    requires |s| >= k + 8
    ensures ParseI64(s[k..]).Some? && ParseI64(s[k..]).value.rest == s[k + 8..]
  {
    assert s[k..][8..] == s[k + 8..];
  }

  /** `ParseRecord` by the length of the input: nothing below four bytes,
      only the begin event below the twenty header bytes, and otherwise
      the begin event, the absolute change and the delta loop over the
      bytes after the header. */
  lemma RecordCases(s: seq<byte>)
    ensures |s| < 4 ==> ParseRecord(s) == Section(false, [], [])
    ensures 4 <= |s| < 20 ==> ParseRecord(s) == Section(false, [BeginBlock(ParseU32(s).value.value)], [])
    ensures |s| >= 20 ==>
      var height := ParseU32(s).value.value;
      var total := ParseU32(s[4..]).value.value;
      var amount := ParseI64(s[8..]).value.value;
      var amountHeight := ParseU32(s[16..]).value.value;
      var d := DeltaLoop(s[20..], ABSOLUTE_BYTES, total, amount, amountHeight);
      ParseRecord(s) == Section(d.ok, [BeginBlock(height), Change(amountHeight, amount)] + d.events, d.rest)
  {
    if |s| >= 20 {
      U32At(s, 4);
      I64At(s, 8);
      U32At(s, 16);
      var amount := ParseI64(s[8..]).value.value;
      var d := DeltaLoop(s[20..], ABSOLUTE_BYTES, ParseU32(s[4..]).value.value, amount, ParseU32(s[16..]).value.value);
      ParseRecordIs(s, ParseU32(s).value.value, s[4..], ParseU32(s[4..]).value.value, s[8..], amount, s[16..],
        ParseU32(s[16..]).value.value, s[20..], d);
    }
  }

  /** The events of one record: a begin event for the height read first,
      as soon as it is read, and nothing but changes after it. */
  lemma RecordEventsShape(s: seq<byte>)
    ensures ParseRecord(s).events == [] <==> |s| < 4
    ensures |s| >= 4 ==>
      && ParseRecord(s).events[0] == BeginBlock(ParseU32(s).value.value)
      && AllChanges(ParseRecord(s).events[1..])
  {
    RecordCases(s);
    if |s| >= 20 {
      var r := ParseRecord(s);
      var d := DeltaLoop(s[20..], ABSOLUTE_BYTES, ParseU32(s[4..]).value.value, ParseI64(s[8..]).value.value, ParseU32(s[16..]).value.value);
      assert r.events[1..] == [r.events[1]] + d.events;
    }
  }

  /** A record cut short inside its twenty header bytes fails; one read in
      full reports its absolute amount and height right after the begin
      event. */
  lemma RecordHeader(s: seq<byte>)
    ensures |s| < 20 ==> !ParseRecord(s).ok
    ensures |s| >= 20 ==>
      && |ParseRecord(s).events| >= 2
      && ParseRecord(s).events[1] == Change(ParseU32(s[16..]).value.value, ParseI64(s[8..]).value.value)
  {
    RecordCases(s);
  }

  /** A section length of at most the twelve absolute bytes runs no turn
      of the delta loop: the record reports its begin event and its
      absolute change and ends right after its header. */
  lemma RecordNoDeltas(s: seq<byte>)
    requires |s| >= 20 && ParseU32(s[4..]).value.value <= ABSOLUTE_BYTES
    ensures ParseRecord(s) == Section(true,
      [BeginBlock(ParseU32(s).value.value), Change(ParseU32(s[16..]).value.value, ParseI64(s[8..]).value.value)],
      s[20..])
  {
    RecordCases(s);
  }

  /** While bytes are owed, running out of input before a varint ends
      fails the loop without another event. */
  lemma DeltaLoopExhausted(s: seq<byte>, bytesRead: u32, total: u32, amount: i64, height: u32)
    requires bytesRead < total
    requires forall i | 0 <= i < |s| :: s[i] > 0x7F
    ensures DeltaLoop(s, bytesRead, total, amount, height) == Section(false, [], [])
  {
    ParseVarU64Shape(s);
  }

  /** ... and so does running out before the height varint ends, once the
      amount varint has been read. */
  lemma HeightExhausted(s: seq<byte>, bytesRead: u32, total: u32, amount: i64, height: u32,
                        c1: u32, diff: u64, s1: seq<byte>)
    requires bytesRead < total
    requires ParseVarU64(s) == Some(VarRead(c1, diff, s1))
    requires forall i | 0 <= i < |s1| :: s1[i] > 0x7F
    ensures DeltaLoop(s, bytesRead, total, amount, height) == Section(false, [], [])
  {
    ParseVarU64Shape(s1);
    ParseVarI32Shape(s1);
  }

  /** `Parse` at a record boundary, by what the first four bytes hold. */
  lemma ParseCases(s: seq<byte>)
    ensures |s| < 4 ==> Parse(s) == Outcome(true, [])
    ensures |s| >= 4 && ParseU32(s).value.value != MAGIC ==> Parse(s) == Outcome(false, [])
    ensures |s| >= 4 && ParseU32(s).value.value == MAGIC ==>
      var rec := ParseRecord(s[4..]);
      Parse(s) == if rec.ok then Outcome(Parse(rec.rest).ok, rec.events + Parse(rec.rest).events)
                  else Outcome(false, rec.events)
  {
  }

  /** Every begin event is followed by a change. */
  predicate ChangeFollowsBegin(evs: seq<Event>)
  {
    forall i | 0 <= i < |evs| && evs[i].BeginBlock? :: i + 1 < |evs| && evs[i + 1].Change?
  }

  lemma ChangeFollowsBeginAppend(a: seq<Event>, b: seq<Event>)
    requires ChangeFollowsBegin(a) && ChangeFollowsBegin(b)
    ensures ChangeFollowsBegin(a + b)
  {
    forall i | 0 <= i < |a + b| && (a + b)[i].BeginBlock?
      ensures i + 1 < |a + b| && (a + b)[i + 1].Change?
    {
      if i < |a| {
        assert a[i].BeginBlock?;
      } else {
        assert b[i - |a|].BeginBlock?;
      }
    }
  }

  /** The events of a record read in full have the begin event first and
      the absolute change right after it. */
  lemma RecordTrace(s: seq<byte>)
    requires ParseRecord(s).ok
    ensures |ParseRecord(s).events| >= 2 && ParseRecord(s).events[0].BeginBlock?
    ensures ChangeFollowsBegin(ParseRecord(s).events)
  {
    RecordHeader(s);
    RecordEventsShape(s);
    var evs := ParseRecord(s).events;
    forall i | 1 <= i < |evs| ensures evs[i].Change? {
      assert evs[1..][i - 1] == evs[i];
    }
  }

  /** `Parse` after a record that reads in full. */
  lemma ParseThen(s: seq<byte>, rec: Section, more: Outcome)
    requires |s| >= 4 && ParseU32(s).value.value == MAGIC
    requires rec == ParseRecord(s[4..]) && rec.ok
    requires more == Parse(rec.rest)
    ensures Parse(s) == Outcome(more.ok, rec.events + more.events)
  {
    ParseCases(s);
  }

  /** `Parse` when the record after the magic fails. */
  lemma ParseFails(s: seq<byte>, rec: Section)
    requires |s| >= 4 && ParseU32(s).value.value == MAGIC
    requires rec == ParseRecord(s[4..]) && !rec.ok
    ensures Parse(s) == Outcome(false, rec.events)
  {
    ParseCases(s);
  }

  /** The trace of `parse` opens with a begin event unless it is empty. */
  lemma ParseOpens(s: seq<byte>)
    ensures Parse(s).events == [] || Parse(s).events[0].BeginBlock?
  {
    ParseCases(s);
    if |s| >= 4 && ParseU32(s).value.value == MAGIC {
      var rec := ParseRecord(s[4..]);
      RecordEventsShape(s[4..]);
      if rec.ok {
        ParseThen(s, rec, Parse(rec.rest));
      } else {
        ParseFails(s, rec);
      }
    }
  }

  /** On success every begin event of `parse` is followed by at least one
      change: the absolute amount and height of its record. */
  lemma {:induction false} ParseTrace(s: seq<byte>)
    ensures Parse(s).ok ==> ChangeFollowsBegin(Parse(s).events)
    decreases |s|
  {
    ParseCases(s);
    if |s| >= 4 && ParseU32(s).value.value == MAGIC {
      var rec := ParseRecord(s[4..]);
      if rec.ok {
        var more := Parse(rec.rest);
        ParseThen(s, rec, more);
        RecordTrace(s[4..]);
        ParseTrace(rec.rest);
        if more.ok {
          ChangeFollowsBeginAppend(rec.events, more.events);
        }
      } else {
        ParseFails(s, rec);
      }
    }
  }
}

=== FILE: readers.dfy ===
/** The primitive readers of `src/blk/parser.rs`: little-endian fixed-width
    integers, the unsigned varint and its ZigZag-decoded signed form.

    The input is modelled as the sequence of bytes the slice iterator still
    has to yield.  A reader returns the value and the bytes left after it, or
    `None` when the iterator runs dry first.  The bytes a failed reader took
    are lost in the source too; `parse` gives up on the first failure. */
module Readers {

  import opened Machine
  import opened Maybe

  /** A value read from the front of the input and the input left after it. */
  datatype Read<+T> = Read(value: T, rest: seq<byte>)

  /** The `(number of bytes, value)` pair of the varint readers, and the
      input left after it. */
  datatype VarRead<+T> = VarRead(count: u32, value: T, rest: seq<byte>)

  // ---------------------------------------------------------------------
  // Fixed-width little-endian integers
  // ---------------------------------------------------------------------

  /** Reference reading: the bytes of `bs` as a little-endian number. */
  function LittleEndian(bs: seq<byte>): nat
  {
    if |bs| == 0 then 0 else bs[0] + 256 * LittleEndian(bs[1..])
  }

  /** `acc |= (b as uN) << shift`, for a shift that loses none of the bits
      of `b` (as in `parse_u32` and `parse_u64`). */
  function OrShifted(acc: nat, b: byte, shift: nat): nat
  {
    BitOr(acc, Shl(b, shift))
  }

  /** The byte lands above every bit of `acc`, so OR adds it. */
  lemma OrShiftedAdds(acc: nat, b: byte, shift: nat)
    requires acc < Pow2(shift)
    ensures OrShifted(acc, b, shift) == acc + Shl(b, shift)
    ensures OrShifted(acc, b, shift) < Pow2(shift + 8)
  {
    OrDisjoint(acc, b, shift);
    ShlBelow(acc, b, 256, shift);
    ShlSevenEight(1);
    ShlShl(1, 8, shift);
  }

  /** The four statements `x |= next()? << (8 * i)` of `parse_u32`. */
  function OrU32(s: seq<byte>): (x: nat)
    requires |s| >= 4
    ensures x == s[0] as int + 0x100 * (s[1] as int) + 0x1_0000 * (s[2] as int) + 0x100_0000 * (s[3] as int)
    ensures x < TWO_32
  {
    Pow2Values();
    ShlBytes(s[1]);
    ShlBytes(s[2]);
    ShlBytes(s[3]);
    OrShiftedAdds(0, s[0], 0);
    var x0 := OrShifted(0, s[0], 0);
    OrShiftedAdds(x0, s[1], 8);
    var x1 := OrShifted(x0, s[1], 8);
    OrShiftedAdds(x1, s[2], 16);
    var x2 := OrShifted(x1, s[2], 16);
    OrShiftedAdds(x2, s[3], 24);
    OrShifted(x2, s[3], 24)
  }

  /** The eight statements `x |= next()? << (8 * i)` of `parse_u64`. */
  function OrU64(s: seq<byte>): (x: nat)
    requires |s| >= 8
    ensures x == s[0] as int + 0x100 * (s[1] as int) + 0x1_0000 * (s[2] as int) + 0x100_0000 * (s[3] as int)
               + 0x1_0000_0000 * (s[4] as int) + 0x100_0000_0000 * (s[5] as int)
               + 0x1_0000_0000_0000 * (s[6] as int) + 0x100_0000_0000_0000 * (s[7] as int)
    ensures x < TWO_64
  {
    Pow2Values();
    ShlBytes(s[4]);
    ShlBytes(s[5]);
    ShlBytes(s[6]);
    ShlBytes(s[7]);
    var x3 := OrU32(s);
    OrShiftedAdds(x3, s[4], 32);
    var x4 := OrShifted(x3, s[4], 32);
    OrShiftedAdds(x4, s[5], 40);
    var x5 := OrShifted(x4, s[5], 40);
    OrShiftedAdds(x5, s[6], 48);
    var x6 := OrShifted(x5, s[6], 48);
    OrShiftedAdds(x6, s[7], 56);
    OrShifted(x6, s[7], 56)
  }

  lemma LittleEndianFour(s: seq<byte>)
    requires |s| >= 4
    ensures LittleEndian(s[..4]) == s[0] as int + 0x100 * (s[1] as int) + 0x1_0000 * (s[2] as int) + 0x100_0000 * (s[3] as int)
  {
    assert LittleEndian(s[3..4]) == s[3] by {
      assert s[3..4][1..] == [];
    }
    assert LittleEndian(s[2..4]) == s[2] + 0x100 * LittleEndian(s[3..4]) by {
      assert s[2..4][1..] == s[3..4];
    }
    assert LittleEndian(s[1..4]) == s[1] + 0x100 * LittleEndian(s[2..4]) by {
      assert s[1..4][1..] == s[2..4];
    }
    assert LittleEndian(s[..4]) == s[0] + 0x100 * LittleEndian(s[1..4]) by {
      assert s[..4][1..] == s[1..4];
    }
  }

  /** The last four of eight bytes count `2^32` times their own reading. */
  lemma LittleEndianEight(s: seq<byte>)
    requires |s| >= 8
    ensures LittleEndian(s[..8]) == LittleEndian(s[..4]) + TWO_32 * LittleEndian(s[4..8])
  {
    assert LittleEndian(s[..8]) == s[0] + 0x100 * LittleEndian(s[1..8]) by {
      assert s[..8][1..] == s[1..8];
    }
    assert LittleEndian(s[1..8]) == s[1] + 0x100 * LittleEndian(s[2..8]) by {
      assert s[1..8][1..] == s[2..8];
    }
    assert LittleEndian(s[2..8]) == s[2] + 0x100 * LittleEndian(s[3..8]) by {
      assert s[2..8][1..] == s[3..8];
    }
    assert LittleEndian(s[3..8]) == s[3] + 0x100 * LittleEndian(s[4..8]) by {
      assert s[3..8][1..] == s[4..8];
    }
    LittleEndianFour(s);
  }

  /** `parse_u32`: fails exactly when fewer than four bytes remain, and
      otherwise consumes four bytes and reads them little-endian. */
  function ParseU32(s: seq<byte>): (r: Option<Read<u32>>)
    ensures r.Some? <==> |s| >= 4
    ensures r.Some? ==> r.value.rest == s[4..]
    ensures r.Some? ==> r.value.value == LittleEndian(s[..4])
  {
    if |s| < 4 then None
    else
      var x: u32 := OrU32(s);
      LittleEndianFour(s);
      Some(Read(x, s[4..]))
  }

  /** `parse_u64`: eight bytes, little-endian; the top bit of the value is
      the top bit of the last byte. */
  function ParseU64(s: seq<byte>): (r: Option<Read<u64>>)
    ensures r.Some? <==> |s| >= 8
    ensures r.Some? ==> r.value.rest == s[8..]
    ensures r.Some? ==> r.value.value == LittleEndian(s[..8])
    ensures r.Some? ==> (r.value.value >= TWO_63 <==> s[7] >= 0x80)
  {
    if |s| < 8 then None
    else
      var x: u64 := OrU64(s);
      LittleEndianFour(s);
      LittleEndianFour(s[4..]);
      assert s[4..][..4] == s[4..8];
      LittleEndianEight(s);
      Some(Read(x, s[8..]))
  }

  /** `parse_i64`: the bits of `parse_u64` read as two's complement. */
  function ParseI64(s: seq<byte>): (r: Option<Read<i64>>)
    ensures r.Some? <==> |s| >= 8
    ensures r.Some? ==> r.value.rest == s[8..]
    ensures r.Some? ==> (r.value.value - LittleEndian(s[..8])) % TWO_64 == 0
    ensures r.Some? ==> (r.value.value < 0 <==> s[7] >= 0x80)
  {
    match ParseU64(s)
    case None => None
    case Some(Read(x, rest)) => Some(Read(U64AsI64(x), rest))
  }

  /** Reference writer: `v` as `n` little-endian bytes (the low `8 * n`
      bits of `v`). */
  function LittleEndianBytes(v: nat, n: nat): (r: seq<byte>)
    ensures |r| == n
  {
    if n == 0 then [] else [(v % 256) as byte] + LittleEndianBytes(v / 256, n - 1)
  }

  lemma Pow2Eight(n: nat)
    requires n >= 1
    ensures Pow2(8 * n) == 256 * Pow2(8 * (n - 1))
  {
    ShlSevenEight(Pow2(8 * (n - 1)));
    ShlShl(1, 8 * (n - 1), 8);
  }

  lemma DivideBelow(v: nat, p: nat)
    requires v < 256 * p
    ensures v / 256 < p
  {
  }

  lemma {:induction false} LittleEndianBytesRoundTrip(v: nat, n: nat)
    requires v < Pow2(8 * n)
    ensures LittleEndian(LittleEndianBytes(v, n)) == v
  {
    if n > 0 {
      Pow2Eight(n);
      DivideBelow(v, Pow2(8 * (n - 1)));
      LittleEndianBytesRoundTrip(v / 256, n - 1);
      assert LittleEndianBytes(v, n)[1..] == LittleEndianBytes(v / 256, n - 1);
    }
  }

  /** Reading a `u32` back from its four little-endian bytes gives the
      value and leaves the bytes after them. */
  lemma ParseU32RoundTrip(v: u32, rest: seq<byte>)
    ensures ParseU32(LittleEndianBytes(v, 4) + rest) == Some(Read(v, rest))
  {
    Pow2Values();
    var s := LittleEndianBytes(v, 4) + rest;
    LittleEndianBytesRoundTrip(v, 4);
    assert s[..4] == LittleEndianBytes(v, 4);
    assert s[4..] == rest;
  }

  /** Reading an `i64` back from the eight little-endian bytes of its
      two's-complement bits gives the value. */
  lemma ParseI64RoundTrip(v: i64, rest: seq<byte>)
    ensures ParseI64(LittleEndianBytes(I64AsU64(v), 8) + rest) == Some(Read(v, rest))
  {
    Pow2Values();
    var u := I64AsU64(v);
    var s := LittleEndianBytes(u, 8) + rest;
    LittleEndianBytesRoundTrip(u, 8);
    assert s[..8] == LittleEndianBytes(u, 8);
    assert s[8..] == rest;
  }

  // ---------------------------------------------------------------------
  // The unsigned varint of `parse_var_u64`
  // ---------------------------------------------------------------------

  /** A complete varint: every byte but the last has its high bit set, and
      the last one does not. */
  predicate IsVarint(t: seq<byte>)
  {
    && |t| >= 1
    && t[|t| - 1] <= 0x7F
    && forall i | 0 <= i < |t| - 1 :: t[i] > 0x7F
  }

  lemma IsVarintCons(b: byte, t: seq<byte>)
    requires b > 0x7F && IsVarint(t)
    ensures IsVarint([b] + t)
  {
    var bt := [b] + t;
    forall i | 0 <= i < |bt| - 1
      ensures bt[i] > 0x7F
    {
      if i > 0 {
        assert bt[i] == t[i - 1];
      }
    }
  }

  lemma IsVarintTail(t: seq<byte>)
    requires IsVarint(t) && |t| >= 2
    ensures IsVarint(t[1..]) && t[0] > 0x7F
  {
    assert t[0] > 0x7F;
    forall i | 0 <= i < |t| - 2
      ensures t[1..][i] > 0x7F
    {
      assert t[1..][i] == t[i + 1];
    }
  }

  /** `x << k` on `u64`: bits shifted past bit 63 are lost. */
  function Shl64(x: u64, k: nat): u64
    requires k < 64
  {
    WrapU64(Shl(x, k))
  }

  /** The shift `7 * num_bytes` of `parse_var_u64`: a `u32` product, reduced
      modulo 64 as a release build does for a `u64` shift. */
  function VarShift(numBytes: u32): (r: nat)
    ensures r < 64
    ensures numBytes <= 9 ==> r == 7 * numBytes
  {
    WrapU32(7 * numBytes) % 64
  }

  lemma WrapU32Twice(a: int, b: int)
    ensures WrapU32(WrapU32(a) + b) == WrapU32(a + b)
  {
    var q := a / TWO_32;
    assert a == TWO_32 * q + WrapU32(a);
    assert a + b == TWO_32 * q + (WrapU32(a) + b);
  }

  /** `a | b` on `u64`. */
  function U64Or(a: u64, b: u64): u64
  {
    Pow2Width();
    BitOrBound(a, b, 64);
    BitOr(a, b)
  }

  /** `val |= ((byte as u64) << (7 * num_bytes))`, with the continuation bit
      of `byte` left in place. */
  function OrVarByte(val: u64, b: byte, numBytes: u32): u64
  {
    U64Or(val, Shl64(b, VarShift(numBytes)))
  }

  /** The loop of `parse_var_u64` with `val` and `num_bytes` so far and `s`
      still to read. */
  function VarLoop(s: seq<byte>, val: u64, numBytes: u32): Option<VarRead<u64>>
    decreases |s|
  {
    if |s| == 0 then None
    else
      var val' := OrVarByte(val, s[0], numBytes);
      var numBytes' := WrapU32(numBytes + 1);
      if s[0] <= 0x7F then Some(VarRead(numBytes', val', s[1..]))
      else VarLoop(s[1..], val', numBytes')
  }

  /** Reference: the length of the varint at the front of `s`, up to and
      including the first byte without its high bit. */
  function VarintLength(s: seq<byte>): Option<nat>
  {
    if |s| == 0 then None
    else if s[0] <= 0x7F then Some(1)
    else match VarintLength(s[1..])
      case None => None
      case Some(c) => Some(c + 1)
  }

  /** There is a varint at the front exactly when some byte lacks the high
      bit, and it ends at the first such byte. */
  lemma {:induction false} VarintLengthFinds(s: seq<byte>)
    ensures VarintLength(s).None? <==> (forall i | 0 <= i < |s| :: s[i] > 0x7F)
    ensures VarintLength(s).Some? ==>
      var c := VarintLength(s).value;
      1 <= c <= |s| && IsVarint(s[..c])
    decreases |s|
  {
    if |s| > 0 && s[0] > 0x7F {
      var b := s[0];
      VarintLengthFinds(s[1..]);
      if VarintLength(s[1..]).None? {
        forall i | 0 <= i < |s| ensures s[i] > 0x7F {
          if i > 0 {
            assert s[i] == s[1..][i - 1];
          }
        }
      } else {
        var c' := VarintLength(s[1..]).value;
        assert s[..c' + 1] == [b] + s[1..][..c'];
        IsVarintCons(b, s[1..][..c']);
      }
    } else if |s| > 0 {
      assert s[..1] == [s[0]];
    }
  }

  /** A varint followed by anything is found with its own length. */
  lemma {:induction false} VarintLengthOf(t: seq<byte>, rest: seq<byte>)
    requires IsVarint(t)
    ensures VarintLength(t + rest) == Some(|t|)
    decreases |t|
  {
    var s := t + rest;
    assert s[0] == t[0];
    if |t| > 1 {
      IsVarintTail(t);
      assert s[1..] == t[1..] + rest;
      VarintLengthOf(t[1..], rest);
    }
  }

  /** The loop of `parse_var_u64` reads exactly the varint at the front and
      counts its bytes in `num_bytes`. */
  lemma {:induction false} VarLoopShape(s: seq<byte>, val: u64, numBytes: u32)
    ensures var r := VarLoop(s, val, numBytes);
      && (r.None? <==> VarintLength(s).None?)
      && (r.Some? ==>
            var c := VarintLength(s).value;
            && c <= |s|
            && r.value.rest == s[c..]
            && r.value.count == WrapU32(numBytes + c))
    decreases |s|
  {
    if |s| > 0 && s[0] > 0x7F {
      var val' := OrVarByte(val, s[0], numBytes);
      var numBytes' := WrapU32(numBytes + 1);
      VarLoopShape(s[1..], val', numBytes');
      if VarLoop(s[1..], val', numBytes').Some? {
        var c' := VarintLength(s[1..]).value;
        assert s[1..][c'..] == s[c' + 1..];
        WrapU32Twice(numBytes + 1, c');
      }
    }
  }

  /** `parse_var_u64`: the loop from `val = 0` and `num_bytes = 0`. */
  function ParseVarU64(s: seq<byte>): Option<VarRead<u64>>
  {
    VarLoop(s, 0, 0)
  }

  /** `parse_var_u64` consumes the bytes up to and including the first one
      without its high bit and reports how many, or fails when there is no
      such byte. */
  lemma ParseVarU64Shape(s: seq<byte>)
    ensures ParseVarU64(s).None? <==> (forall i | 0 <= i < |s| :: s[i] > 0x7F)
    ensures ParseVarU64(s).Some? ==>
      var c := |s| - |ParseVarU64(s).value.rest|;
      && 1 <= c
      && ParseVarU64(s).value.rest == s[c..]
      && IsVarint(s[..c])
      && ParseVarU64(s).value.count == WrapU32(c)
  {
    VarLoopShape(s, 0, 0);
    VarintLengthFinds(s);
  }

  /** Reference decoder: the standard unsigned LEB128 value of a varint,
      where each byte contributes only its low seven bits (section 7.6 of
      the DWARF 4 standard). */
  function Leb128Value(t: seq<byte>): nat
  {
    if |t| == 0 then 0 else t[0] % 128 + 128 * Leb128Value(t[1..])
  }

  /** `1 + 2^7 + 2^14 + ...` with `m` terms. */
  function Ones(m: nat): nat
  {
    if m == 0 then 0 else 1 + 128 * Ones(m - 1)
  }

  /** Bit `7 * (i + 1)` for every byte `i` of an `n`-byte varint but the
      last: where the continuation bit of byte `i` lands when the byte is
      shifted by `7 * i` without masking it off. */
  function ContinuationBits(n: nat): nat
  {
    if n == 0 then 0 else 128 * Ones(n - 1)
  }

  /** The varint value with the lowest bit of every 7-bit group forced on,
      as it is for every group that follows a continuation byte. */
  function ForcedGroups(t: seq<byte>): nat
  {
    if |t| == 0 then 0 else SetLowBit(t[0] % 128) + 128 * ForcedGroups(t[1..])
  }

  /** A number given as a low 7-bit group and the groups above it, in the
      form `BitOrSplit` speaks about. */
  lemma GroupsAsShift(x: nat, y: nat, g: nat, h: nat, l: nat, o: nat)
    requires x == g + 128 * l && y == h + 128 * o
    ensures BitOr(x, y) == BitOr(g + Shl(l, 7), h + Shl(o, 7))
  {
    ShlSevenEight(l);
    ShlSevenEight(o);
  }

  lemma SplitSeven(g: nat, h: nat, l: nat, o: nat)
    requires g < 128 && h < 128
    ensures BitOr(g + Shl(l, 7), h + Shl(o, 7)) == BitOr(g, h) + Shl(BitOr(l, o), 7)
  {
    ShlSevenEight(1);
    BitOrSplit(g, h, l, o, 7);
  }

  /** OR on numbers made of a low 7-bit group and the groups above it works
      group by group. */
  lemma OrGroups(x: nat, y: nat, g: nat, h: nat, l: nat, o: nat)
    requires g < 128 && h < 128 && x == g + 128 * l && y == h + 128 * o
    ensures BitOr(x, y) == BitOr(g, h) + 128 * BitOr(l, o)
  {
    GroupsAsShift(x, y, g, h, l, o);
    SplitSeven(g, h, l, o);
    ShlSevenEight(BitOr(l, o));
  }

  lemma {:induction false} ForcedGroupsIsOr(t: seq<byte>)
    ensures ForcedGroups(t) == BitOr(Leb128Value(t), Ones(|t|))
  {
    if |t| == 0 {
      BitOrZero(0);
    } else {
      var g, l, o := t[0] % 128, Leb128Value(t[1..]), Ones(|t[1..]|);
      ForcedGroupsIsOr(t[1..]);
      OrGroups(Leb128Value(t), Ones(|t|), g, 1, l, o);
      OrOne(g);
    }
  }

  /** The continuation bits OR'd into a varint of two or more bytes: the
      first group as it is, the others with bit 0 forced on. */
  lemma Leb128OrContinuation(t: seq<byte>)
    requires |t| >= 2
    ensures BitOr(Leb128Value(t), ContinuationBits(|t|)) == t[0] % 128 + 128 * ForcedGroups(t[1..])
  {
    var g, l, o := t[0] % 128, Leb128Value(t[1..]), Ones(|t[1..]|);
    ForcedGroupsIsOr(t[1..]);
    OrGroups(Leb128Value(t), ContinuationBits(|t|), g, 0, l, o);
    BitOrZero(g);
  }

  /** The shift of byte `n` of a varint of at most nine bytes loses no bit. */
  lemma VarShiftExact(n: nat, b: byte)
    requires n <= 8
    ensures Shl64(b, VarShift(n)) == Shl(b, 7 * n)
  {
    ShlGrows(1, 7 * n);
    ShlBelow(0, b, 256, 7 * n);
    ShlSevenEight(1);
    ShlShl(1, 8, 7 * n);
    Pow2Monotone(8 + 7 * n, 64);
    Pow2Width();
  }

  /** An accumulator below bit `7 * m` with bit `7 * m` set still fits in a
      `u64` for `m <= 9`. */
  lemma AccBelow(x: nat, m: nat)
    requires m <= 9 && x < Pow2(7 * m)
    ensures x + Pow2(7 * m) < TWO_64
  {
    if m == 9 {
      Pow2Sign();
      return;
    }
    ShlBelow(x, 1, 256, 7 * m);
    ShlSevenEight(1);
    ShlShl(1, 8, 7 * m);
    Pow2Monotone(8 + 7 * m, 64);
    Pow2Width();
  }

  /** `OrVarByte` is `BitOr` on the accumulator and the shifted byte. */
  lemma OrVarByteIs(val: u64, b: byte, n: nat, x: nat, z: nat)
    requires n <= 8 && x == val && BitOr(x, Shl(b, 7 * n)) == z
    ensures OrVarByte(val, b, n) == z
  {
    VarShiftExact(n, b);
  }

  /** One turn of the loop inside a varint: the accumulator `acc` holds the
      groups read so far below bit `7 * n` and the previous byte's
      continuation bit at bit `7 * n`; OR-ing the next byte on top merges
      that bit with the byte's bit 0. */
  lemma VarByteForced(low: nat, n: nat, b: byte, acc: nat)
    requires 1 <= n <= 8 && low < Pow2(7 * n) && acc == low + Pow2(7 * n)
    ensures acc < TWO_64
    ensures OrVarByte(acc, b, n) == low + Shl(SetLowBit(b), 7 * n)
  {
    AccBelow(low, n);
    OrHighOne(low, 7 * n, b);
    OrVarByteIs(acc, b, n, low + Shl(1, 7 * n), low + Shl(SetLowBit(b), 7 * n));
  }

  /** The loop stops at a byte without its high bit ... */
  lemma VarLoopStops(t: seq<byte>, rest: seq<byte>, val: u64, numBytes: nat, v: u64)
    requires |t| == 1 && t[0] <= 0x7F && numBytes < MAX_U32 && OrVarByte(val, t[0], numBytes) == v
    ensures VarLoop(t + rest, val, numBytes) == Some(VarRead(numBytes + 1, v, rest))
  {
    var s := t + rest;
    assert s[0] == t[0] && s[1..] == rest;
  }

  /** ... and goes on past a byte with it. */
  lemma VarLoopGoesOn(t: seq<byte>, rest: seq<byte>, val: u64, numBytes: nat, v: u64)
    requires |t| >= 1 && t[0] > 0x7F && numBytes < MAX_U32 && OrVarByte(val, t[0], numBytes) == v
    ensures VarLoop(t + rest, val, numBytes) == VarLoop(t[1..] + rest, v, numBytes + 1)
  {
    var s := t + rest;
    assert s[0] == t[0] && s[1..] == t[1..] + rest;
  }

  lemma SetLowBitGroup(b: byte)
    requires b >= 128
    ensures SetLowBit(b) == SetLowBit(b % 128) + 128
    ensures SetLowBit(b % 128) < 128
  {
  }

  lemma ForcedGroupsCons(t: seq<byte>)
    requires |t| >= 1
    ensures ForcedGroups(t) == SetLowBit(t[0] % 128) + 128 * ForcedGroups(t[1..])
  {
  }

  /** Moving from group `n` to group `n + 1`, where `x` is a shift by
      `7 * (n + 1)`. */
  lemma ShlNextGroup(x: nat, n: nat)
    ensures Shl(128 * x, 7 * n) == Shl(x, 7 * (n + 1))
  {
    ShlSevenEight(x);
    ShlShl(x, 7, 7 * n);
    ShlEqual(128 * x, Shl(x, 7), 7 * n);
    assert 7 + 7 * n == 7 * (n + 1);
  }

  /** The arithmetic of a continuation byte with low group `g` followed by
      groups `f`, read at group `n`. */
  lemma GroupCarry(low: nat, g: nat, f: nat, n: nat)
    requires g < 128 && low < Pow2(7 * n)
    ensures low + Shl(g + 128, 7 * n) == low + Shl(g, 7 * n) + Pow2(7 * (n + 1))
    ensures low + Shl(g, 7 * n) < Pow2(7 * (n + 1))
    ensures low + Shl(g, 7 * n) + Shl(f, 7 * (n + 1)) == low + Shl(g + 128 * f, 7 * n)
  {
    ShlAdd(g, 128, 7 * n);
    ShlNextGroup(1, n);
    ShlBelow(low, g, 128, 7 * n);
    ShlAdd(g, 128 * f, 7 * n);
    ShlNextGroup(f, n);
  }

  /** `GroupCarry` for the first byte of `t`. */
  lemma ByteCarry(t: seq<byte>, low: nat, n: nat)
    requires |t| >= 2 && t[0] > 0x7F && low < Pow2(7 * n)
    ensures var low' := low + Shl(SetLowBit(t[0] % 128), 7 * n);
      && low + Shl(SetLowBit(t[0]), 7 * n) == low' + Pow2(7 * (n + 1))
      && low' < Pow2(7 * (n + 1))
      && low' + Shl(ForcedGroups(t[1..]), 7 * (n + 1)) == low + Shl(ForcedGroups(t), 7 * n)
  {
    var g, f := SetLowBit(t[0] % 128), ForcedGroups(t[1..]);
    SetLowBitGroup(t[0]);
    ForcedGroupsCons(t);
    GroupCarry(low, g, f, n);
    ShlEqual(SetLowBit(t[0]), g + 128, 7 * n);
    ShlEqual(ForcedGroups(t), g + 128 * f, 7 * n);
  }

  lemma ForcedGroupsLast(t: seq<byte>)
    requires |t| == 1 && t[0] <= 0x7F
    ensures ForcedGroups(t) == SetLowBit(t[0])
  {
    assert t[1..] == [];
  }

  /** The last byte of a varint, read at group `n` with accumulator `acc`. */
  lemma VarLoopLast(t: seq<byte>, rest: seq<byte>, low: nat, n: nat, acc: nat, c: nat, v: nat)
    requires IsVarint(t) && |t| == 1 && 1 <= n <= 8 && low < Pow2(7 * n)
    requires acc == low + Pow2(7 * n) && c == n + 1 && v == low + Shl(ForcedGroups(t), 7 * n)
    ensures acc < TWO_64
    ensures VarLoop(t + rest, acc, n) == Some(VarRead(c, v, rest))
  {
    var b := t[0];
    VarByteForced(low, n, b, acc);
    ForcedGroupsLast(t);
    ShlEqual(ForcedGroups(t), SetLowBit(b), 7 * n);
    VarLoopStops(t, rest, acc, n, v);
  }

  /** The first byte of `t`, a continuation byte, read at group `n`: the
      accumulator moves to group `n + 1` with the groups `low'` below it,
      and what the rest of `t` adds scales along. */
  lemma VarNextGroup(t: seq<byte>, low: nat, n: nat, acc: nat, low': nat)
    requires |t| >= 2 && t[0] > 0x7F
    requires 1 <= n <= 8 && low < Pow2(7 * n) && acc == low + Pow2(7 * n)
    requires low' == low + Shl(SetLowBit(t[0] % 128), 7 * n)
    ensures acc < TWO_64
    ensures low' < Pow2(7 * (n + 1)) && low' + Pow2(7 * (n + 1)) < TWO_64
    ensures OrVarByte(acc, t[0], n) == low' + Pow2(7 * (n + 1))
    ensures low' + Shl(ForcedGroups(t[1..]), 7 * (n + 1)) == low + Shl(ForcedGroups(t), 7 * n)
  {
    VarByteForced(low, n, t[0], acc);
    ByteCarry(t, low, n);
    AccBelow(low', n + 1);
  }

  /** Past the first byte of `t`, the loop goes on with what the next group
      holds and ends wherever the rest of `t` makes it end. */
  lemma VarLoopNext(t: seq<byte>, rest: seq<byte>, low: nat, n: nat, acc: nat, low': nat, r: Option<VarRead<u64>>)
    requires |t| >= 2
    requires t[0] > 0x7F
    requires 1 <= n <= 8
    requires low < Pow2(7 * n)
    requires acc == low + Pow2(7 * n)
    requires low' == low + Shl(SetLowBit(t[0] % 128), 7 * n)
    requires low' + Pow2(7 * (n + 1)) < TWO_64
    requires VarLoop(t[1..] + rest, low' + Pow2(7 * (n + 1)), n + 1) == r
    ensures acc < TWO_64
    ensures VarLoop(t + rest, acc, n) == r
  {
    VarNextGroup(t, low, n, acc, low');
    VarLoopGoesOn(t, rest, acc, n, low' + Pow2(7 * (n + 1)));
  }

  /** Inside a varint after `n` continuation bytes, with the groups `low`
      below bit `7 * n` and the continuation bit at bit `7 * n` in the
      accumulator `acc`: the rest of the varint adds its groups, each with
      bit 0 forced on, and the loop ends with `c` bytes and value `v`. */
  lemma {:induction false} VarLoopForced(t: seq<byte>, rest: seq<byte>, low: nat, n: nat, acc: nat, c: nat, v: nat)
    requires IsVarint(t) && 1 <= n && n + |t| <= 9 && low < Pow2(7 * n) && acc == low + Pow2(7 * n)
    requires c == n + |t| && v == low + Shl(ForcedGroups(t), 7 * n)
    ensures acc < TWO_64
    ensures VarLoop(t + rest, acc, n) == Some(VarRead(c, v, rest))
    decreases |t|
  {
    if |t| == 1 {
      VarLoopLast(t, rest, low, n, acc, c, v);
    } else {
      var low' := low + Shl(SetLowBit(t[0] % 128), 7 * n);
      var acc' := low' + Pow2(7 * (n + 1));
      VarForcedNextGroup(t, rest, low, n, acc, low', v);
      VarLoopForced(t[1..], rest, low', n + 1, acc', c, v);
    }
  }

  /** The step of `VarLoopForced`: the rest of `t` is a varint again, the
      groups `v` it ends with are the same from group `n + 1`, and the loop
      goes on there. */
  lemma VarForcedNextGroup(t: seq<byte>, rest: seq<byte>, low: nat, n: nat, acc: nat, low': nat, v: nat)
    requires IsVarint(t) && |t| >= 2 && 1 <= n && n + |t| <= 9
    requires low < Pow2(7 * n) && acc == low + Pow2(7 * n)
    requires low' == low + Shl(SetLowBit(t[0] % 128), 7 * n)
    requires v == low + Shl(ForcedGroups(t), 7 * n)
    ensures IsVarint(t[1..]) && t[0] > 0x7F && n <= 7
    ensures low' < Pow2(7 * (n + 1)) && low' + Pow2(7 * (n + 1)) < TWO_64
    ensures v == low' + Shl(ForcedGroups(t[1..]), 7 * (n + 1))
    ensures acc < TWO_64
    ensures VarLoop(t + rest, acc, n) == VarLoop(t[1..] + rest, low' + Pow2(7 * (n + 1)), n + 1)
  {
    VarNextGroup(t, low, n, acc, low');
    IsVarintTail(t);
    VarLoopNext(t, rest, low, n, acc, low', VarLoop(t[1..] + rest, low' + Pow2(7 * (n + 1)), n + 1));
  }

  /** The tenth byte of a varint is shifted by 63: only its bit 0 survives,
      at bit 63, where the ninth byte's continuation bit already sits. */
  lemma VarTenthByte(low: nat, acc: nat, b: byte)
    requires low < TWO_63 && acc == low + TWO_63
    ensures acc < TWO_64
    ensures OrVarByte(acc, b, 9) == acc
  {
    Pow2Sign();
    ShlIsMul(b, 63);
    var r, q := b % 2, b / 2;
    assert b == r + 2 * q;
    assert Shl(b, 63) == r * TWO_63 + q * TWO_64;
    assert Shl64(b, VarShift(9)) == r * TWO_63;
    if r == 0 {
      BitOrZero(acc);
    } else {
      OrHighOne(low, 63, 1);
    }
  }

  /** A top group with bit 0 set, shifted to bit 63 and cut to 64 bits, is
      the sign bit alone. */
  lemma TopGroup(low: nat, g: nat, v: int)
    requires low < TWO_63 && g % 2 == 1 && v == (low + Shl(g, 63)) % TWO_64
    ensures v == low + TWO_63
  {
    Pow2Sign();
    ShlIsMul(g, 63);
    var q := g / 2;
    assert g == 2 * q + 1;
    assert Shl(g, 63) == q * TWO_64 + TWO_63;
    assert low + Shl(g, 63) == (low + TWO_63) + q * TWO_64;
  }

  /** The last byte of a ten-byte varint, read at group 9. */
  lemma VarLoopLastTen(t: seq<byte>, rest: seq<byte>, low: nat, acc: nat, v: int)
    requires IsVarint(t) && |t| == 1 && low < Pow2(63) && acc == low + Pow2(63)
    requires v == (low + Shl(ForcedGroups(t), 63)) % TWO_64
    ensures acc < TWO_64 && v == acc
    ensures VarLoop(t + rest, acc, 9) == Some(VarRead(10, v, rest))
  {
    Pow2Sign();
    ForcedGroupsLast(t);
    ShlEqual(ForcedGroups(t), SetLowBit(t[0]), 63);
    TopGroup(low, SetLowBit(t[0]), v);
    VarTenthByte(low, acc, t[0]);
    VarLoopStops(t, rest, acc, 9, v);
  }

  /** `VarLoopForced` for a varint that ends at its tenth byte: the groups
      `w` are cut to 64 bits, and bit 63 is set. */
  lemma {:induction false} VarLoopForcedTen(t: seq<byte>, rest: seq<byte>, low: nat, n: nat, acc: nat, w: nat, v: int)
    requires IsVarint(t) && 1 <= n && n + |t| == 10 && low < Pow2(7 * n) && acc == low + Pow2(7 * n)
    requires w == low + Shl(ForcedGroups(t), 7 * n) && v == w % TWO_64
    ensures acc < TWO_64 && TWO_63 <= v < TWO_64
    ensures VarLoop(t + rest, acc, n) == Some(VarRead(10, v, rest))
    decreases |t|
  {
    if |t| == 1 {
      VarLoopTenthAt(t, rest, low, n, acc, w, v);
    } else {
      var low' := low + Shl(SetLowBit(t[0] % 128), 7 * n);
      var acc' := low' + Pow2(7 * (n + 1));
      VarTenNextGroup(t, rest, low, n, acc, low', w);
      VarLoopForcedTen(t[1..], rest, low', n + 1, acc', w, v);
    }
  }

  /** The step of `VarLoopForcedTen`: the rest of `t` is a varint again,
      the groups `w` it ends with are the same from group `n + 1`, and the
      loop goes on there. */
  lemma VarTenNextGroup(t: seq<byte>, rest: seq<byte>, low: nat, n: nat, acc: nat, low': nat, w: nat)
    requires IsVarint(t) && |t| >= 2 && 1 <= n && n + |t| == 10
    requires low < Pow2(7 * n) && acc == low + Pow2(7 * n)
    requires low' == low + Shl(SetLowBit(t[0] % 128), 7 * n)
    requires w == low + Shl(ForcedGroups(t), 7 * n)
    ensures IsVarint(t[1..]) && t[0] > 0x7F && n <= 8
    ensures low' < Pow2(7 * (n + 1)) && low' + Pow2(7 * (n + 1)) < TWO_64
    ensures w == low' + Shl(ForcedGroups(t[1..]), 7 * (n + 1))
    ensures acc < TWO_64
    ensures VarLoop(t + rest, acc, n) == VarLoop(t[1..] + rest, low' + Pow2(7 * (n + 1)), n + 1)
  {
    VarNextGroup(t, low, n, acc, low');
    IsVarintTail(t);
    VarLoopNext(t, rest, low, n, acc, low', VarLoop(t[1..] + rest, low' + Pow2(7 * (n + 1)), n + 1));
  }

  /** The base case of `VarLoopForcedTen`: one byte left, at group 9. */
  lemma VarLoopTenthAt(t: seq<byte>, rest: seq<byte>, low: nat, n: nat, acc: nat, w: nat, v: int)
    requires IsVarint(t) && |t| == 1 && n == 9 && low < Pow2(7 * n) && acc == low + Pow2(7 * n)
    requires w == low + Shl(ForcedGroups(t), 7 * n) && v == w % TWO_64
    ensures acc < TWO_64 && TWO_63 <= v < TWO_64
    ensures VarLoop(t + rest, acc, n) == Some(VarRead(10, v, rest))
  {
    Pow2Sign();
    VarLoopLastTen(t, rest, low, acc, v);
  }

  /** The first byte of a varint: no continuation bit precedes it. */
  lemma VarFirstByte(b: byte)
    ensures OrVarByte(0, b, 0) == b
  {
    BitOrZero(b);
    OrVarByteIs(0, b, 0, 0, b);
  }

  lemma VarLoopFirst(t: seq<byte>, rest: seq<byte>)
    requires IsVarint(t)
    ensures |t| == 1 ==> VarLoop(t + rest, 0, 0) == Some(VarRead(1, t[0], rest))
    ensures |t| > 1 ==> VarLoop(t + rest, 0, 0) == VarLoop(t[1..] + rest, t[0], 1)
  {
    VarFirstByte(t[0]);
    if |t| == 1 {
      VarLoopStops(t, rest, 0, 0, t[0]);
    } else {
      VarLoopGoesOn(t, rest, 0, 0, t[0]);
    }
  }

  /** The first byte of a longer varint: its low group and its
      continuation bit at bit 7. */
  lemma FirstGroup(t: seq<byte>)
    requires IsVarint(t) && |t| >= 2
    ensures t[0] % 128 < Pow2(7 * 1) && t[0] == t[0] % 128 + Pow2(7 * 1)
  {
    ShlSevenEight(1);
    assert t[0] > 0x7F;
  }

  lemma Leb128One(t: seq<byte>)
    requires IsVarint(t) && |t| == 1
    ensures Leb128Value(t) == t[0] && ContinuationBits(|t|) == 0
  {
    assert t[1..] == [];
  }

  lemma Leb128Single(t: seq<byte>)
    requires IsVarint(t) && |t| == 1
    ensures BitOr(Leb128Value(t), ContinuationBits(|t|)) == t[0]
  {
    Leb128One(t);
    BitOrEqual(Leb128Value(t), ContinuationBits(|t|), t[0], 0);
    BitOrZero(t[0]);
  }

  /** `parse_var_u64` on a varint of two to nine bytes: the first group as
      it is, every later group with bit 0 forced on by the continuation bit
      of the byte before it. */
  lemma VarU64Forced(t: seq<byte>, rest: seq<byte>)
    requires IsVarint(t) && 2 <= |t| <= 9
    ensures ParseVarU64(t + rest)
         == Some(VarRead(|t|, t[0] % 128 + 128 * ForcedGroups(t[1..]), rest))
  {
    var low := t[0] % 128;
    var f := ForcedGroups(t[1..]);
    VarU64ForcedAt(t, rest, low, f, low + 128 * f);
  }

  lemma VarU64ForcedAt(t: seq<byte>, rest: seq<byte>, low: nat, f: nat, v: nat)
    requires IsVarint(t) && 2 <= |t| <= 9
    requires low == t[0] % 128 && f == ForcedGroups(t[1..]) && v == low + 128 * f
    ensures v < TWO_64
    ensures ParseVarU64(t + rest) == Some(VarRead(|t|, v, rest))
  {
    IsVarintTail(t);
    FirstGroup(t);
    ShlSevenEight(f);
    VarLoopForced(t[1..], rest, low, 1, t[0], |t|, v);
    VarLoopFirst(t, rest);
    ParseVarU64Is(t + rest, Some(VarRead(|t|, v, rest)));
  }

  /** `parse_var_u64` on a ten-byte varint: the groups as for a shorter
      one, cut to 64 bits, with bit 63 set. */
  lemma VarU64TenAt(t: seq<byte>, rest: seq<byte>, low: nat, f: nat, v: int)
    requires IsVarint(t) && |t| == 10
    requires low == t[0] % 128 && f == ForcedGroups(t[1..]) && v == (low + 128 * f) % TWO_64
    ensures TWO_63 <= v < TWO_64
    ensures ParseVarU64(t + rest) == Some(VarRead(10, v, rest))
  {
    IsVarintTail(t);
    FirstGroup(t);
    ShlSevenEight(f);
    VarLoopForcedTen(t[1..], rest, low, 1, t[0], low + 128 * f, v);
    VarLoopFirst(t, rest);
    ParseVarU64Is(t + rest, Some(VarRead(10, v, rest)));
  }

  /** `parse_var_u64` is its loop started at zero: an unfolding step kept
      apart so that callers do not unfold the loop itself. */
  lemma ParseVarU64Is(s: seq<byte>, r: Option<VarRead<u64>>)
    requires VarLoop(s, 0, 0) == r
    ensures ParseVarU64(s) == r
  {
  }

  /** What `parse_var_u64` computes for a varint of at most ten bytes: the
      standard LEB128 value OR'd with the continuation bit of every byte but
      the last, as that bit is not masked off before the shift, cut to 64
      bits. Up to nine bytes nothing is cut; the tenth byte is shifted by 63,
      so only its bit 0 lands in the value. */
  lemma VarU64Value(t: seq<byte>, rest: seq<byte>)
    requires IsVarint(t) && |t| <= 10
    ensures |t| <= 9 ==> BitOr(Leb128Value(t), ContinuationBits(|t|)) < TWO_64
    ensures ParseVarU64(t + rest)
         == Some(VarRead(|t|, WrapU64(BitOr(Leb128Value(t), ContinuationBits(|t|))), rest))
  {
    var x := BitOr(Leb128Value(t), ContinuationBits(|t|));
    if |t| <= 9 {
      VarU64Short(t, rest, x);
    } else {
      VarU64Long(t, rest, x);
    }
  }

  /** `VarU64Value` at ten bytes, where the tenth byte is cut to its bit 0. */
  lemma VarU64Long(t: seq<byte>, rest: seq<byte>, x: nat)
    requires IsVarint(t) && |t| == 10 && x == BitOr(Leb128Value(t), ContinuationBits(|t|))
    ensures TWO_63 <= x % TWO_64
    ensures ParseVarU64(t + rest) == Some(VarRead(|t|, x % TWO_64, rest))
  {
    var low, f := t[0] % 128, ForcedGroups(t[1..]);
    Leb128OrContinuation(t);
    VarU64TenAt(t, rest, low, f, (low + 128 * f) % TWO_64);
  }

  /** `VarU64Value` up to nine bytes, where nothing is cut. */
  lemma VarU64Short(t: seq<byte>, rest: seq<byte>, x: nat)
    requires IsVarint(t) && |t| <= 9 && x == BitOr(Leb128Value(t), ContinuationBits(|t|))
    ensures x < TWO_64
    ensures ParseVarU64(t + rest) == Some(VarRead(|t|, x, rest))
  {
    if |t| == 1 {
      VarU64One(t, rest, x);
    } else {
      VarU64Several(t, rest, x);
    }
  }

  lemma VarU64One(t: seq<byte>, rest: seq<byte>, x: nat)
    requires IsVarint(t) && |t| == 1 && x == BitOr(Leb128Value(t), ContinuationBits(|t|))
    ensures x < TWO_64
    ensures ParseVarU64(t + rest) == Some(VarRead(|t|, x, rest))
  {
    VarLoopFirst(t, rest);
    Leb128Single(t);
  }

  lemma VarU64Several(t: seq<byte>, rest: seq<byte>, x: nat)
    requires IsVarint(t) && 2 <= |t| <= 9 && x == BitOr(Leb128Value(t), ContinuationBits(|t|))
    ensures x < TWO_64
    ensures ParseVarU64(t + rest) == Some(VarRead(|t|, x, rest))
  {
    Leb128OrContinuation(t);
    VarU64ForcedAt(t, rest, t[0] % 128, ForcedGroups(t[1..]), x);
  }

  /** Reference value of a varint of at most ten bytes: its LEB128 value
      with the continuation bits left in, cut to 64 bits. */
  function VarintValue(t: seq<byte>): u64
    requires IsVarint(t) && |t| <= 10
  {
    WrapU64(BitOr(Leb128Value(t), ContinuationBits(|t|)))
  }

  /** A single byte without its high bit is a varint of its own value. */
  lemma VarU64SingleByte(b: byte, rest: seq<byte>)
    requires b <= 0x7F
    ensures ParseVarU64([b] + rest) == Some(VarRead(1, b, rest))
  {
    VarU64Value([b], rest);
    Leb128Single([b]);
  }

  /** The groups of the bytes `AC 02`. */
  lemma ExampleGroups(t: seq<byte>)
    requires t == [0xAC, 0x02]
    ensures t[0] % 128 == 44 && ForcedGroups(t[1..]) == 3
    ensures Leb128Value(t) == 300
  {
    var u := t[1..];
    assert u == [0x02] && u[1..] == [];
    ForcedGroupsLast(u);
    assert Leb128Value(u) == 2;
  }

  /** The bytes `AC 02`, which are 300 in standard LEB128, decode to 428:
      the continuation bit of `AC` lands on bit 0 of the second group. */
  lemma VarU64NotLeb128(t: seq<byte>)
    requires t == [0xAC, 0x02]
    ensures Leb128Value(t) == 300
    ensures ParseVarU64(t) == Some(VarRead(2, 428, []))
  {
    VarU64Forced(t, []);
    assert t + [] == t;
    ExampleGroups(t);
  }

  /** Every varint of two to ten bytes decodes with bit 7 set: the
      continuation bit of its first byte stays in place. */
  lemma VarU64BitSeven(t: seq<byte>, rest: seq<byte>)
    requires IsVarint(t) && 2 <= |t| <= 10
    ensures ParseVarU64(t + rest).Some?
    ensures (ParseVarU64(t + rest).value.value / 128) % 2 == 1
  {
    var low := t[0] % 128;
    var f := ForcedGroups(t[1..]);
    ForcedGroupsCons(t[1..]);
    if |t| <= 9 {
      VarU64ForcedAt(t, rest, low, f, low + 128 * f);
      GroupAboveOdd(low, SetLowBit(t[1] % 128), ForcedGroups(t[1..][1..]), f, low + 128 * f);
    } else {
      VarU64TenAt(t, rest, low, f, (low + 128 * f) % TWO_64);
      GroupAboveOddCut(low, SetLowBit(t[1] % 128), ForcedGroups(t[1..][1..]), f, (low + 128 * f) % TWO_64);
    }
  }

  /** A number whose second 7-bit group starts with a forced bit has bit 7
      set. */
  lemma GroupAboveOdd(low: nat, g: nat, h: nat, f: nat, v: nat)
    requires low < 128 && g % 2 == 1 && f == g + 128 * h && v == low + 128 * f
    ensures (v / 128) % 2 == 1
  {
    assert v == 128 * f + low;
    assert v / 128 == f;
    var k := 64 * h;
    assert f == 2 * k + g;
    assert f % 2 == g % 2;
  }

  /** `GroupAboveOdd` after the cut to 64 bits: the bits cut off lie above
      bit 7. */
  lemma GroupAboveOddCut(low: nat, g: nat, h: nat, f: nat, v: int)
    requires low < 128 && g % 2 == 1 && f == g + 128 * h && v == (low + 128 * f) % TWO_64
    ensures (v / 128) % 2 == 1
  {
    var k := (low + 128 * f) / TWO_64;
    assert low + 128 * f == k * TWO_64 + v;
    var f' := f - k * 0x200_0000_0000_0000;
    assert v == 128 * f' + low;
    assert v / 128 == f';
    var m := 64 * h - k * 0x100_0000_0000_0000;
    assert f' == 2 * m + g;
    assert f' % 2 == g % 2;
  }

  /** So no varint of at most ten bytes decodes to a value of 128 or more
      whose bit 7 is clear, 256 for one: such an amount or height
      difference has no encoding. */
  lemma VarU64Gaps(t: seq<byte>, rest: seq<byte>, v: u64)
    requires IsVarint(t) && |t| <= 10
    requires v >= 128 && (v / 128) % 2 == 0
    ensures ParseVarU64(t + rest).Some? && ParseVarU64(t + rest).value.value != v
  {
    if |t| == 1 {
      VarU64SingleByte(t[0], rest);
    } else {
      VarU64BitSeven(t, rest);
    }
  }

  /** The groups after the first byte stay below the bit their count
      reaches. */
  lemma {:induction false} ForcedGroupsBelow(t: seq<byte>)
    ensures ForcedGroups(t) < Pow2(7 * |t|)
  {
    if |t| == 0 {
      assert Pow2(0) == 1;
    } else {
      var m := |t| - 1;
      var p := Pow2(7 * m);
      ForcedGroupsBelow(t[1..]);
      ForcedGroupsCons(t);
      ShlSevenEight(p);
      ShlShl(1, 7 * m, 7);
      assert 7 * m + 7 == 7 * |t|;
      assert Pow2(7 * |t|) == 128 * p;
      assert SetLowBit(t[0] % 128) < 128;
    }
  }

  /** A varint of at most nine bytes decodes below 2^63, so as an `i64` it
      is never negative; a ten-byte one always has bit 63 set, so it always
      is. The ten-byte varints are exactly the negative amount deltas. */
  lemma VarintSign(t: seq<byte>)
    requires IsVarint(t) && |t| <= 10
    ensures VarintValue(t) >= TWO_63 <==> |t| == 10
    ensures U64AsI64(VarintValue(t)) < 0 <==> |t| == 10
  {
    VarintHigh(t, BitOr(Leb128Value(t), ContinuationBits(|t|)));
  }

  /** The first half of `VarintSign`, on the value before it is cut. */
  lemma VarintHigh(t: seq<byte>, x: nat)
    requires IsVarint(t) && |t| <= 10 && x == BitOr(Leb128Value(t), ContinuationBits(|t|))
    ensures x % TWO_64 >= TWO_63 <==> |t| == 10
  {
    if |t| == 1 {
      Leb128Single(t);
    } else if |t| == 10 {
      VarU64Long(t, [], x);
    } else {
      Leb128OrContinuation(t);
      ShortBelowSign(t, t[0] % 128, ForcedGroups(t[1..]), x % TWO_64);
    }
  }

  /** The arithmetic of `VarintSign` for two to nine bytes. */
  lemma ShortBelowSign(t: seq<byte>, low: nat, f: nat, x: int)
    requires 2 <= |t| <= 9 && low < 128 && f == ForcedGroups(t[1..]) && x == (low + 128 * f) % TWO_64
    ensures 0 <= x < TWO_63
  {
    ForcedGroupsBelow(t[1..]);
    Pow2Monotone(7 * (|t| - 1), 56);
    Pow2Values();
    assert f < 0x100_0000_0000_0000;
    assert low + 128 * f < TWO_63;
  }

  /** A ten-byte varint: `FF` nine times then `01` decodes to 2^64 - 1,
      which is -1 as an `i64`, so an amount can go down by one. */
  lemma VarU64MinusOne(t: seq<byte>)
    requires t == [0xFF, 0xFF, 0xFF, 0xFF, 0xFF, 0xFF, 0xFF, 0xFF, 0xFF, 0x01]
    ensures ParseVarU64(t) == Some(VarRead(10, MAX_U64, []))
    ensures U64AsI64(MAX_U64) == -1
  {
    assert IsVarint(t);
    assert t[9..][1..] == [];
    assert ForcedGroups(t[9..]) == 1;
    assert t[8..][1..] == t[9..];
    assert ForcedGroups(t[8..]) == 0xFF;
    assert t[7..][1..] == t[8..];
    assert ForcedGroups(t[7..]) == 0x7FFF;
    assert t[6..][1..] == t[7..];
    assert ForcedGroups(t[6..]) == 0x3FFFFF;
    assert t[5..][1..] == t[6..];
    assert ForcedGroups(t[5..]) == 0x1FFFFFFF;
    assert t[4..][1..] == t[5..];
    assert ForcedGroups(t[4..]) == 0xFFFFFFFFF;
    assert t[3..][1..] == t[4..];
    assert ForcedGroups(t[3..]) == 0x7FFFFFFFFFF;
    assert t[2..][1..] == t[3..];
    assert ForcedGroups(t[2..]) == 0x3FFFFFFFFFFFF;
    assert t[1..][1..] == t[2..];
    assert ForcedGroups(t[1..]) == 0x1FFFFFFFFFFFFFF;
    assert t + [] == t;
    VarU64TenAt(t, [], 127, 0x1FFFFFFFFFFFFFF, MAX_U64);
  }

  /** Different varints can decode to the same value: `80 00` and `80 01`
      are both 128, as the continuation bit of `80` already sets bit 7. */
  lemma VarU64NotInjective(t: seq<byte>, u: seq<byte>)
    requires t == [0x80, 0x00] && u == [0x80, 0x01]
    ensures ParseVarU64(t) == Some(VarRead(2, 128, []))
    ensures ParseVarU64(u) == Some(VarRead(2, 128, []))
  {
    assert t[1..] == [0x00] && t[1..][1..] == [];
    assert u[1..] == [0x01] && u[1..][1..] == [];
    assert t + [] == t && u + [] == u;
    VarU64ForcedAt(t, [], 0, 1, 128);
    VarU64ForcedAt(u, [], 0, 1, 128);
  }

  // ---------------------------------------------------------------------
  // ZigZag decoding: `parse_var_i32`
  // ---------------------------------------------------------------------

  /** `x ^ mask` for a mask that is all zeros or all ones: the identity or
      the bitwise complement. */
  function XorMask64(x: u64, mask: u64): u64
    requires mask == 0 || mask == MAX_U64
  {
    if mask == 0 then x else MAX_U64 - x
  }

  /** The body of `parse_var_i32` after the varint:
      `((val >> 1) ^ 0_u64.wrapping_sub(val & 1)) as i32`. */
  function ZigZagDecode(raw: u64): i32
  {
    var mask := WrapU64(0 - raw % 2);
    U64AsI32(XorMask64(raw / 2, mask))
  }

  /** ZigZag decoding maps even raw values to their half and odd ones to
      minus their half rounded up, up to 32-bit wrap-around. */
  lemma ZigZagDecodeValue(raw: u64)
    ensures raw < TWO_32 ==>
      ZigZagDecode(raw) == (if raw % 2 == 0 then raw / 2 else -(raw / 2) - 1)
    ensures (ZigZagDecode(raw) - (if raw % 2 == 0 then raw / 2 else -(raw / 2) - 1)) % TWO_32 == 0
  {
  }

  /** Reference writer: the Protocol Buffers ZigZag encoding of an `i32`,
      `((n << 1) ^ (n >> 31)) as u32`, where `n >> 31` is arithmetic and so
      all ones exactly for negative `n`. */
  function ZigZagEncode(n: i32): u32
  {
    var shifted := WrapU32(2 * I32AsU32(n));
    if n >= 0 then shifted else MAX_U32 - shifted
  }

  /** ZigZag decoding inverts the encoding for every `i32`. */
  lemma ZigZagRoundTrip(n: i32)
    ensures ZigZagDecode(ZigZagEncode(n)) == n
  {
    var raw: int := ZigZagEncode(n);
    var m: int := n;
    if m >= 0 {
      assert raw == 2 * m;
      assert WrapU64(0 - raw % 2) == 0;
    } else {
      assert WrapU32(2 * I32AsU32(n)) == 2 * m + TWO_32;
      assert raw == -2 * m - 1;
      assert raw / 2 == -m - 1;
      assert WrapU64(0 - raw % 2) == MAX_U64;
      assert XorMask64(raw / 2, MAX_U64) == TWO_64 + m;
      assert (TWO_64 + m) % TWO_32 == TWO_32 + m;
    }
  }

  /** ... and the encoding inverts the decoding on every 32-bit raw value. */
  lemma ZigZagRoundTripRaw(raw: u64)
    requires raw < TWO_32
    ensures ZigZagEncode(ZigZagDecode(raw)) == raw
  {
  }

  /** `parse_var_i32`. */
  function ParseVarI32(s: seq<byte>): Option<VarRead<i32>>
  {
    match ParseVarU64(s)
    case None => None
    case Some(VarRead(n, raw, rest)) => Some(VarRead(n, ZigZagDecode(raw), rest))
  }

  /** `parse_var_i32` reads the same bytes as `parse_var_u64` and, when the
      raw value fits 32 bits, yields its ZigZag meaning. */
  lemma ParseVarI32Shape(s: seq<byte>)
    ensures ParseVarI32(s).Some? <==> ParseVarU64(s).Some?
    ensures ParseVarI32(s).Some? ==>
      && ParseVarI32(s).value.count == ParseVarU64(s).value.count
      && ParseVarI32(s).value.rest == ParseVarU64(s).value.rest
    ensures ParseVarI32(s).Some? && ParseVarU64(s).value.value < TWO_32 ==>
      var raw := ParseVarU64(s).value.value;
      ParseVarI32(s).value.value == (if raw % 2 == 0 then raw / 2 else -(raw / 2) - 1)
  {
    if ParseVarU64(s).Some? {
      ZigZagDecodeValue(ParseVarU64(s).value.value);
    }
  }

  /** `parse_var_i32` on a varint of at most ten bytes: the ZigZag decoding
      of its reference value. */
  lemma VarI32Value(t: seq<byte>, rest: seq<byte>)
    requires IsVarint(t) && |t| <= 10
    ensures ParseVarI32(t + rest) == Some(VarRead(|t|, ZigZagDecode(VarintValue(t)), rest))
  {
    VarU64Value(t, rest);
  }
}
